=== FILE: README.md ===
# JoinFlow: committee admission and its helpers, modelled in Dafny

JoinFlow lets an organiser create an event with committees ("AJK"). Each
committee has a maximum number of members. Students then register into a
committee using the event's registration token.

The core of the system is the **admission check**, `POST /api/ajk/register`. It
admits a registrant into a committee only when all of these hold:

- the committee belongs to the event the token names;
- the committee still has room;
- the student's matric number is not yet registered anywhere in that event.

Around it sit:

- the **availability projection** (`GET /api/ajk`), which lists each committee with its open places;
- event listing and creation (`/api/events`);
- token validation (`/api/events/validate-token`);
- the profile endpoint (`/api/profile`);
- the admin and login screens' pure helpers:
  - the event status badge, in two copies;
  - the registration total;
  - the CSV export rows and file name;
  - the delete guard;
  - committee-row editing and the submit guards of the create form;
  - the login checks;
  - the snippet's colour variant and copy text.

The model is functional. The database is a value `Store` holding four lists of
rows: events, committees, registrations and users. Every handler is a function
from the request and a store to a reply and a new store. Some things are passed
in as parameters:

- `fault` names the store call that reports an error;
- `uuidv4()` is `newId` or `uuid: nat -> string`;
- the SHA-256 hash is `hash: string -> string`;
- the current time is `now: int`;
- locale date formatting is `format`.

The empty string stands for both NULL/undefined and "". Every test the code
makes is a JavaScript falsiness test, which does not tell the two apart.

Modules:

| module | file | models |
|---|---|---|
| `Common` | common.dfy | `Option`; `Filter` (a store `.eq` selection); `Single` (`.single()`) |
| `JsText` | jstext.dfy | JS white space; `split`/`join`; base-10 `parseInt`; `x \|\| "-"` |
| `Store` | store.dfy | the four tables; `Capacity`; `Occupancy` (the count query); the two admission guarantees |
| `Admission` | admission.dfy | app/api/ajk/register/route.ts |
| `Availability` | availability.dfy | app/api/ajk/route.ts |
| `EventsApi` | events_api.dfy | app/api/events/route.ts |
| `ValidateToken` | validate_token.dfy | app/api/events/validate-token/route.ts |
| `ProfileApi` | profile_api.dfy | app/api/profile/route.ts |
| `ExistingEvents` | existing_events.dfy | app/admin/ExistingEventsTab.tsx |
| `EventCards` | events_tab.dfy | app/admin/events/ExistingEventsTab.tsx |
| `AddEvent` | add_event.dfy | app/admin/events/AddEventTab.tsx |
| `LoginForm` | login_form.dfy | components/login-form.tsx |
| `Snippet` | snippet.dfy | components/snippet.tsx |

### Behaviour of the code worth knowing

- **Capacity is checked before duplicates** (app/api/ajk/register/route.ts:52-86).
  So a retry after the request that filled the committee is told the
  committee is full, not that the student is already registered.
  `Admission.RetryIsRefused` states what the code does: the retry is refused as
  a duplicate or as full. `Admission.FullBeforeDuplicate` pins down the order.
- **The events table has two token columns, `token` and `ajk_token`.**
  - The admission check and token validation look the event up by the `token`
    column.
  - The availability projection looks it up by `ajk_token`.
  - Both the admin overview tab and the registration form query the projection
    with the registration token.
  - So the projection finds the event only when some event's `ajk_token` equals
    that token. `ExistingEvents.FetchMissesUnlessTokensCoincide` and
    `Availability.ListingUsesAjkToken` state this.
  - Neither file shows whether the database keeps the two columns equal, so
    this is recorded here and not as a finding.
- **Available places are not clamped.** `max_members - count` can go negative.
- **Capacity can be anything.** `parseInt` of the typed value is stored
  unchecked, so a capacity may be NaN (stored NULL, which compares as 0), zero
  or negative. The capacity guarantee is therefore stated as "a committee that
  holds registrations holds at most its capacity".
- **A duplicate lookup can fail.** `.maybeSingle()` reports an error when two
  rows match. With the one-registration-per-event guarantee this cannot happen
  (`Admission.AtMostOneMatch`).

## Model

| member | source | states |
|---|---|---|
| Common.Filter | app/api/ajk/route.ts:25-28 | every row of a store selection is taken from the table and satisfies the predicate, and every matching row is selected |
| Common.FilterCounts | app/api/ajk/route.ts:25-28 | a selection holds each matching row exactly as many times as the table does, and no other row |
| Common.FilterEmpty | app/api/ajk/register/route.ts:70-86 | an empty selection means that no row matches, and the other way round |
| Common.Single | app/api/ajk/register/route.ts:24-35 | `.single()` yields a row exactly when exactly one row matches, and that row is the unique match |
| Store.Occupancy | app/api/ajk/register/route.ts:52-56 | the count is zero exactly when no registration references the committee in the event |
| JsText.Split | app/api/profile/route.ts:39 | splitting yields at least one part, and no part contains the separator |
| JsText.JoinSplit | app/api/profile/route.ts:39 | joining the parts of a split gives back the string |
| JsText.SplitJoin | components/snippet.tsx:67 | splitting a join of separator-free parts gives back the parts |
| JsText.ParseIntDecimal | app/api/events/route.ts:61 | base-10 `parseInt` reads back any decimal number, whatever non-digit text follows it |
| JsText.ParseIntSkipsSpace | app/api/events/route.ts:61 | leading white space does not change what `parseInt` reads |
| JsText.ParseIntNaN | app/api/events/route.ts:61 | text that starts with no sign or digit parses to NaN |
| JsText.TrimStart | app/api/events/route.ts:61 | only leading white space is dropped, and the result starts with a non-space |
| JsText.OrDash | app/admin/ExistingEventsTab.tsx:142-147 | `x \|\| "-"` is never empty and keeps any non-empty value |
| Admission.Register | app/api/ajk/register/route.ts:5-115 | a rejection leaves the store unchanged; an admission requires all of these: a complete body and a token; an event with that token; a committee with the requested id under that event; its count below its capacity; no registration of the matric number in the event. The admission appends exactly the new row |
| Admission.Decide | app/api/ajk/register/route.ts:52-107 | after the lookups, admits only below capacity and with no same-event registration of the matric number |
| Admission.FieldsCheckedFirst | app/api/ajk/register/route.ts:7-14 | a body missing a field gets 400 before the store is consulted, whatever the store holds |
| Admission.TokenChecked | app/api/ajk/register/route.ts:16-35 | no token gives 400; a token that no event carries gives 404; nothing is written |
| Admission.ForeignCommitteeRejected | app/api/ajk/register/route.ts:37-50 | a committee that exists only under another event is refused as invalid |
| Admission.FullBeforeDuplicate | app/api/ajk/register/route.ts:52-86 | a registrant who is already registered and asks for a full committee is told it is full |
| Admission.DuplicateInEventRejected | app/api/ajk/register/route.ts:70-86 | a matric number registered anywhere in the event is refused when the committee has room |
| Admission.AtMostOneMatch | app/api/ajk/register/route.ts:70-79 | under one-registration-per-event the duplicate lookup sees at most one row |
| Admission.OtherEventsDoNotBlock | app/api/ajk/register/route.ts:70-75 | the same matric number in other events does not block admission |
| Admission.FreshRegistrantAdmitted | app/api/ajk/register/route.ts:62-104 | a committee with room and a matric number unseen in the event lead to admission with the group link |
| Admission.AdmissionRespectsCapacity | app/api/ajk/register/route.ts:52-68 | an admission raises one committee's count by one and keeps it within capacity; other counts stay |
| Admission.RegisterPreservesInvariant | app/api/ajk/register/route.ts:52-98 | every request keeps both guarantees: committees within capacity and one registration per matric number and event |
| Admission.RegisterAllPreservesInvariant | app/api/ajk/register/route.ts:5-115 | the guarantees hold after any sequence of requests handled one at a time, whichever store calls fail |
| Admission.RetryIsRefused | app/api/ajk/register/route.ts:52-86 | repeating a successful request is refused as a duplicate or as full, never admitted |
| Admission.AdmissionRecordsRegistrant | app/api/ajk/register/route.ts:88-98 | after an admission the matric number has exactly one registration in the event |
| Admission.KnownRegistrantRefused | app/api/ajk/register/route.ts:62-86 | a matric number registered once in the event is never admitted again |
| Admission.GroupLinkReturned | app/api/ajk/register/route.ts:104-107 | success returns the event's group link, or null when it has none |
| Availability.ListCommittees | app/api/ajk/route.ts:4-56 | no token gives 400; an unknown committee token gives 404; a listing is given exactly when a token resolves to one event and the store does not fail; it has one entry per committee of the event, in order, with its id, name and capacity |
| Availability.Entries | app/api/ajk/route.ts:50-53 | each entry's open places are the capacity minus that committee's tally |
| Availability.TallyIsOccupancy | app/api/ajk/route.ts:34-48 | the one-pass tally equals the admission check's count for every non-empty committee id |
| Availability.AvailableIsCapacityMinusCount | app/api/ajk/route.ts:43-53 | `available_members` is the capacity minus the number of the committee's registrations |
| Availability.EmptyCommitteeFullyAvailable | app/api/ajk/route.ts:50-53 | a committee nobody joined shows its whole capacity |
| Availability.AvailabilityAgreesWithAdmission | app/api/ajk/route.ts:50-53 | a place shows as open exactly when the admission's capacity test would pass |
| Availability.OccupiedNeverNegative | app/api/ajk/route.ts:50-53 | while capacity is respected, an occupied committee never shows a negative count |
| Availability.ListingUsesAjkToken | app/api/ajk/route.ts:12-23 | an event reachable only by its registration token is not found by the listing |
| EventsApi.InsertByStart | app/api/events/route.ts:16 | insertion keeps the start-date order and adds exactly one element |
| EventsApi.SortByStart | app/api/events/route.ts:16 | the ordering is sorted by start date and is a permutation of its input |
| EventsApi.ListEvents | app/api/events/route.ts:5-22 | no user id gives 400; a store error gives 500; otherwise the listing is given, start-ordered and a permutation of the user's events |
| EventsApi.ListedAreExactlyOwned | app/api/events/route.ts:12-16 | every listed event belongs to the user, and every event of the user is listed |
| EventsApi.CommitteeRows | app/api/events/route.ts:57-63 | one committee row per entry, with a fresh id, the new event's id, the name and the parsed capacity |
| EventsApi.CreateEvent | app/api/events/route.ts:24-85 | missing name or date gives 400 and writes nothing; a failed event insert writes nothing; a failed committee insert keeps the event row; once the event is inserted, its row carries the new id, the body's name, description, dates and creator, and the database's defaults; creation succeeds exactly for a complete body when the event insert works and the committee insert works or has nothing to insert; success appends the event and one committee per entry |
| EventsApi.CommitteesMirrorList | app/api/events/route.ts:57-67 | the created committees mirror the submitted list entry by entry, in order |
| EventsApi.TypedCapacityStored | app/api/events/route.ts:61 | a capacity typed as a decimal number is stored as that number |
| EventsApi.NoListOnlyEvent | app/api/events/route.ts:57 | without a committee list only the event row is inserted |
| EventsApi.CreatedCommittees | app/api/events/route.ts:57-76 | after success the committees are the old ones plus the new rows |
| EventsApi.FreshCommitteesKeepCapacity | app/api/events/route.ts:58-63 | committees with fresh ids start empty, so capacity stays respected |
| EventsApi.CreatePreservesInvariant | app/api/events/route.ts:24-85 | creating an event keeps both admission guarantees |
| ValidateToken.Validate | app/api/events/validate-token/route.ts:4-25 | valid exactly when the body is JSON with a token, the store answers, and exactly one event carries the token; an empty token gives 400; a malformed body or a store error gives 500; a resolved lookup answers 200, with valid false when no event carries the token, and two matching events give 500 |
| ValidateToken.UniqueTokenMatchesAtMostOnce | app/api/events/validate-token/route.ts:12-16 | with unique tokens the lookup matches at most one event |
| ValidateToken.ValidIffSomeEvent | app/api/events/validate-token/route.ts:12-20 | with unique tokens, valid exactly when some event carries the token |
| ValidateToken.ValidTokenResolves | app/api/events/validate-token/route.ts:12-20 | a token found valid resolves to an event in the admission check's lookup |
| ProfileApi.GetProfile | app/api/profile/route.ts:11-36 | no token gives 400; the user is found exactly when the token matches one row and the store does not fail, and then has the token as id; a store error or a token matching no single row gives 404 |
| ProfileApi.BearerToken | app/api/profile/route.ts:39 | the token never contains a space |
| ProfileApi.BearerTokenOfScheme | app/api/profile/route.ts:39 | a `Bearer <id>` header yields the id |
| ProfileApi.NoSpaceNoToken | app/api/profile/route.ts:39-45 | a header without a space carries no token |
| ProfileApi.BuildPayload | app/api/profile/route.ts:54-63 | the payload holds the email only when one is given, and the hashed password only when one is given |
| ProfileApi.UpdateProfile | app/api/profile/route.ts:38-88 | unparseable JSON after a token gives 400; the update succeeds exactly when there is a token, a body with an email or password, a healthy store and one user with that id; only a success changes the store; only users change; an updated user has the token as id |
| ProfileApi.NoTokenUnauthorized | app/api/profile/route.ts:39-45 | without a token the reply is 401 and nothing changes |
| ProfileApi.EmptyUpdateRefused | app/api/profile/route.ts:65-70 | a body with neither field gets 400 and nothing changes |
| ProfileApi.OnlyTheTokenUserChanges | app/api/profile/route.ts:72-77 | only the token's user changes, and only in the fields given; its id and role stay |
| ExistingEvents.EventStatus | app/admin/ExistingEventsTab.tsx:83-92 | Upcoming exactly before a readable start; Ongoing exactly between readable dates, ends included; Completed otherwise; the colour matches the status |
| ExistingEvents.UnreadableStartCompleted | app/admin/ExistingEventsTab.tsx:83-92 | an unreadable start date shows as Completed |
| ExistingEvents.StatusMonotone | app/admin/ExistingEventsTab.tsx:83-92 | for start ≤ end, later instants never move the status backwards |
| ExistingEvents.FetchCommittees | app/admin/ExistingEventsTab.tsx:45-63 | only events with a registration token are fetched, and with that token |
| ExistingEvents.FetchMissesUnlessTokensCoincide | app/admin/ExistingEventsTab.tsx:45-61 | the fetch gets 404 unless some event's committee token equals the registration token |
| ExistingEvents.CsvRowsOf | app/admin/ExistingEventsTab.tsx:107-162 | a committee contributes one row per registration, or one row when it has none |
| ExistingEvents.ExportRowCount | app/admin/ExistingEventsTab.tsx:94-163 | the export has one row per registration plus one per empty committee, i.e. the registration total plus the empty committees |
| ExistingEvents.TotalFromFront | app/admin/ExistingEventsTab.tsx:94-96 | the `reduce` total equals the first committee's count plus the total of the rest |
| ExistingEvents.ExportRowsAppend | app/admin/ExistingEventsTab.tsx:107-163 | rows come committee by committee, in list order |
| ExistingEvents.MembersInOrder | app/admin/ExistingEventsTab.tsx:108-150 | member rows follow registration order, with each falsy field shown as a dash |
| ExistingEvents.EmptyCommitteePlaceholder | app/admin/ExistingEventsTab.tsx:151-161 | a committee nobody joined gives one row with dashes in every member column |
| ExistingEvents.NoEmptyCell | app/admin/ExistingEventsTab.tsx:110-161 | no export cell is empty, given a formatter that never prints an empty date |
| ExistingEvents.SafeName | app/admin/ExistingEventsTab.tsx:178-180 | same length; only lower-case letters, digits and `_`; letters and digits kept and lower-cased, every other character becomes `_` |
| ExistingEvents.SafeNameIdempotent | app/admin/ExistingEventsTab.tsx:178-180 | cleaning a cleaned name changes nothing |
| ExistingEvents.ExportCsv | app/admin/ExistingEventsTab.tsx:98-188 | nothing is exported exactly when there are no committees; otherwise the rows are the committee-by-committee rows, their count is the budget, at least one per committee, and the file name is the cleaned event name, `_registrations_`, the date and `.csv` |
| ExistingEvents.TabList | app/admin/ExistingEventsTab.tsx:45-63 | the tab holds a non-empty list only after a successful listing fetch, and then one entry per listed committee, without registrations |
| ExistingEvents.TotalAsWritten | app/admin/ExistingEventsTab.tsx:94-96 | the `reduce` throws exactly when some committee lacks its registrations |
| ExistingEvents.ExportAsWritten | app/admin/ExistingEventsTab.tsx:98-188 | nothing to export exactly for an empty list; failure exactly when some committee lacks its registrations; otherwise the committee-by-committee rows |
| ExistingEvents.TabListCannotBeCounted | app/admin/ExistingEventsTab.tsx:94-108 | every non-empty list the tab can hold makes the total throw and the export fail |
| ExistingEvents.MembersOf | app/api/ajk/route.ts:34-48 | a committee's registrations in the event number exactly its occupancy |
| ExistingEvents.IntendedList | app/admin/ExistingEventsTab.tsx:45-63 | the intended list is non-empty only after a successful listing fetch |
| ExistingEvents.IntendedListMatchesListing | app/api/ajk/route.ts:50-53 | the intended list has the listing's committees in order, and each one's registrations number its capacity minus its open places |
| ExistingEvents.DeliveredTotal | app/admin/ExistingEventsTab.tsx:94-96 | over committees that carry their registrations, the `reduce` gives the registration total and does not throw |
| ExistingEvents.DeliveredListExports | app/admin/ExistingEventsTab.tsx:94-188 | a list delivered with registrations totals to `TotalRegistrations` and, when non-empty, exports the `ExportCsv` file |
| ExistingEvents.BudgetCoversCommittees | app/admin/ExistingEventsTab.tsx:107-163 | every committee gets at least one row |
| EventCards.CardStatus | app/admin/events/ExistingEventsTab.tsx:52-61 | the three statuses, each as an if-and-only-if, and the matching colour |
| EventCards.CopiesAgree | app/admin/events/ExistingEventsTab.tsx:52-61 | the two copies of `getEventStatus` agree on every input |
| EventCards.HandleDelete | app/admin/events/ExistingEventsTab.tsx:33-50 | an empty id is refused before asking; a request is sent exactly for a non-empty id with confirmation, to `/api/events/<id>` |
| EventCards.DeletePathNamesEvent | app/admin/events/ExistingEventsTab.tsx:39 | two delete requests are equal exactly when the ids are |
| AddEvent.ChangeRow | app/admin/events/AddEventTab.tsx:37-41 | one field of one row changes; every other row and field stays |
| AddEvent.ChangeUndone | app/admin/events/AddEventTab.tsx:37-41 | writing back the old value restores the list |
| AddEvent.AddRow | app/admin/events/AddEventTab.tsx:43-45 | one empty row is appended, and the rest is unchanged |
| AddEvent.RemoveRow | app/admin/events/AddEventTab.tsx:47-49 | an index in range removes exactly one row; one past the end removes none |
| AddEvent.RemoveRowAt | app/admin/events/AddEventTab.tsx:47-49 | rows before the index keep their place, and later rows move up by one |
| AddEvent.RemoveIsSplice | app/admin/events/AddEventTab.tsx:47-49 | removal is the list before the index followed by the list after it |
| AddEvent.RemoveUndoesAdd | app/admin/events/AddEventTab.tsx:43-49 | removing the row just added gives back the list |
| AddEvent.RowsNeverEmpty | app/admin/events/AddEventTab.tsx:190-198 | with the remove control shown only above one row, no edit sequence empties the list |
| AddEvent.SomeIncomplete | app/admin/events/AddEventTab.tsx:59 | true exactly when some row lacks a name or a capacity |
| AddEvent.Submit | app/admin/events/AddEventTab.tsx:51-75 | missing dates are reported first; then incomplete rows; otherwise the request carries the form |
| AddEvent.SentRowsComplete | app/admin/events/AddEventTab.tsx:59-73 | a sent request carries every row, complete and in order |
| AddEvent.ServerRefusesOnlyEmptyName | app/admin/events/AddEventTab.tsx:51-75 | the server refuses a request from the form for missing fields exactly when the name is empty |
| AddEvent.AfterReply | app/admin/events/AddEventTab.tsx:77-86 | success resets the form to empty fields, both dates `now` and one empty row; an error keeps it |
| AddEvent.ResetFormNeedsRow | app/admin/events/AddEventTab.tsx:79-84 | a freshly reset form cannot be sent until its row is filled |
| LoginForm.MatchesEmail | components/login-form.tsx:32 | the scan answers true exactly when `\S+@\S+\.\S+` occurs in the email |
| LoginForm.CheckLogin | components/login-form.tsx:25-48 | a bad email is reported first; then a password under six characters; the request is made exactly when both pass |
| LoginForm.ShortestAddress | components/login-form.tsx:32 | `a@b.c` is accepted |
| LoginForm.NothingShorter | components/login-form.tsx:32 | no string under five characters is accepted |
| LoginForm.NoAtNoEmail | components/login-form.tsx:32 | a string without `@` is rejected |
| LoginForm.SpacedDomainRejected | components/login-form.tsx:32 | `a@b c.d`, whose only `@` is followed by a space before its only `.`, is rejected |
| Snippet.GetVariant | components/snippet.tsx:45-48 | the dark flag wins; otherwise the type picks the variant; with neither the default is used |
| Snippet.BackgroundIdentifiesVariant | components/snippet.tsx:17-43 | each variant has its own background class |
| Snippet.Lines | components/snippet.tsx:61 | a single string is one line; a list is its own lines |
| Snippet.CopySingle | components/snippet.tsx:61-67 | a single string is copied as given |
| Snippet.CopyRecoversLines | components/snippet.tsx:61-67 | splitting the copied text at newlines gives back the lines when none holds a newline |
| Snippet.CopyLength | components/snippet.tsx:67 | `k` lines are joined with `k - 1` newlines |

## Findings

| source | as written | input that shows it | evidently intended | confidence | as-written member | corrected member |
|---|---|---|---|---|---|---|
| app/admin/ExistingEventsTab.tsx:94-108 | the tab reads `ajk.registrations.length` from the list `/api/ajk` returns, which carries only `id`, `name`, `max_members` and `available_members` (app/api/ajk/route.ts:25-55) | an event whose `ajk_token` equals its `token`, with one committee: the fetch succeeds, and the total and the export read a missing property and throw | each committee reaches the tab with its registrations in the event, so the total counts them and the export lists them | medium, not executed | ExistingEvents.TabListCannotBeCounted | ExistingEvents.DeliveredListExports, ExistingEvents.IntendedListMatchesListing |

## Left out

- Supabase and HTTP are left out. Store calls are list operations. Each possible store error is a `fault` parameter. Replies are datatypes with a status function.
- The source runs three separate store calls without a transaction. The model is sequential, so the race is not modelled: two concurrent admissions could both pass the count check and overfill a committee.
- `crypto` SHA-256 hashing is a parameter `hash`.
- `uuidv4()` is a parameter. Freshness is assumed where a lemma needs it (`Store.Unused`).
- `Date` parsing, the clock, `toISOString` and `toLocaleString` are left out. Instants are integers, an unreadable date is None, and formatting is a parameter.
- Strings are Unicode scalar sequences. JavaScript measures UTF-16 code units, so `password.length` and the file-name cleaning differ for characters outside the Basic Multilingual Plane.
- `parseInt` is exact on unbounded integers. JavaScript loses precision above 2^53.
- `Papa.unparse`, the byte-order mark, `Blob`, `saveAs`, `navigator.clipboard`, toasts, timers, `localStorage`, redirects and every piece of React rendering are left out. The model stops at the rows, the file name, the copied text and the request each handler would make.
- The browser's `required` attribute on the event-name and committee inputs is left out. Only the JavaScript guards are modelled. `AddEvent.ServerRefusesOnlyEmptyName` shows what the server does when the name check is skipped.
- app/api/register/route.ts and the other context files are not part of this model.
- The store's order among events with equal start dates is left out: `.order("start_date")` leaves ties unspecified, and `EventsApi.SortByStart` picks one admissible order.
- ExistingEvents.ExportCsv: it models the export of a list whose committees carry their registrations. `ExistingEvents.ExportAsWritten` models the `catch` for committees without registrations (see Findings). A `name` that is not a string also throws in the source; here names are always strings.
- `getTotalRegistrations` throwing during rendering is modelled as the None result of `ExistingEvents.TotalAsWritten`; what React then shows is left out.
- ProfileApi.UpdateProfile: a body that parses to JSON `null` is not modelled. app/api/profile/route.ts:54 destructures it outside any `try`, so the handler throws and the framework answers 500. A number, string or boolean body reads both fields as `undefined`; the model covers it as `ProfileBody("", "")`, refused with 400 (`ProfileApi.EmptyUpdateRefused`).
- ProfileApi.UpdateProfile: it models a failed `.single()` after the update as leaving the table unchanged, as the store's single-row mode rolls the update back. The id is the table's key, so at most one row can match anyway.

=== FILE: add_event.dfy ===
/** The "create event" form (app/admin/events/AddEventTab.tsx): editing the
    list of committee rows, the checks run before the form is sent, and
    what the form looks like after a successful creation. */
module AddEvent {
  import opened Common
  import EventsApi
  import Store

  /** A committee row as typed; both fields are the inputs' text. */
  datatype AjkRow = AjkRow(name: string, maxMembers: string)

  datatype Field = Name | MaxMembers

  const EmptyRow := AjkRow("", "")

  /** The form's state. A date is None when the picker has been cleared. */
  datatype Form = Form(name: string, description: string, start: Option<int>, end: Option<int>, rows: seq<AjkRow>)

  /** `handleAjkChange(index, field, value)`: the one field of the one row
      is replaced; every other row and field stays. */
  function ChangeRow(rows: seq<AjkRow>, index: nat, field: Field, value: string): (r: seq<AjkRow>)
    requires index < |rows|
    ensures |r| == |rows|
    ensures forall i :: 0 <= i < |rows| && i != index ==> r[i] == rows[i]
    ensures field == Name ==> r[index] == AjkRow(value, rows[index].maxMembers)
    ensures field == MaxMembers ==> r[index] == AjkRow(rows[index].name, value)
  {
    rows[index := match field
      case Name => rows[index].(name := value)
      case MaxMembers => rows[index].(maxMembers := value)]
  }

  /** Writing back the value a field had restores the list. */
  lemma ChangeUndone(rows: seq<AjkRow>, index: nat, field: Field, value: string)
    requires index < |rows|
    ensures var old_value := if field == Name then rows[index].name else rows[index].maxMembers;
      ChangeRow(ChangeRow(rows, index, field, value), index, field, old_value) == rows
  {
  }

  /** `addAjkRow`: one empty row at the end. */
  function AddRow(rows: seq<AjkRow>): (r: seq<AjkRow>)
    ensures |r| == |rows| + 1 && r[..|rows|] == rows && r[|rows|] == EmptyRow
  {
    rows + [EmptyRow]
  }

  /** `removeAjkRow(index)`: `filter((_, i) => i !== index)`, so an index
      past the end removes nothing. */
  function RemoveRow(rows: seq<AjkRow>, index: nat): (r: seq<AjkRow>)
    ensures index < |rows| ==> |r| == |rows| - 1
    ensures index >= |rows| ==> r == rows
    decreases |rows|
  {
    if |rows| == 0 then []
    else RemoveRow(rows[..|rows| - 1], index) + (if index == |rows| - 1 then [] else [rows[|rows| - 1]])
  }

  /** The rows before the index keep their place; the ones after it move
      up by one. */
  lemma {:induction false} RemoveRowAt(rows: seq<AjkRow>, index: nat, i: nat)
    requires i < |RemoveRow(rows, index)|
    ensures RemoveRow(rows, index)[i] == (if i < index then rows[i] else rows[i + 1])
    decreases |rows|
  {
    var init := rows[..|rows| - 1];
    var kept := RemoveRow(init, index);
    if i < |kept| {
      RemoveRowAt(init, index, i);
    }
  }

  /** Removing keeps the rows before the index and after it, in order. */
  lemma RemoveIsSplice(rows: seq<AjkRow>, index: nat)
    requires index < |rows|
    ensures RemoveRow(rows, index) == rows[..index] + rows[index + 1..]
  {
    forall i | 0 <= i < |RemoveRow(rows, index)|
      ensures RemoveRow(rows, index)[i] == (rows[..index] + rows[index + 1..])[i]
    {
      RemoveRowAt(rows, index, i);
    }
  }

  /** Removing the row just added gives back the list. */
  lemma RemoveUndoesAdd(rows: seq<AjkRow>)
    ensures RemoveRow(AddRow(rows), |rows|) == rows
  {
  }

  /** The remove control is shown only while there is more than one row. */
  predicate CanRemove(rows: seq<AjkRow>) {
    |rows| > 1
  }

  /** A user action on the committee rows, as the form offers it. */
  datatype Edit = Change(index: nat, field: Field, value: string) | Add | Remove(index: nat)

  /** The rows after an action; actions the form does not offer (an index
      with no row, a remove while the control is hidden) leave them as they
      are. */
  function ApplyEdit(rows: seq<AjkRow>, e: Edit): seq<AjkRow> {
    match e
    case Change(i, f, v) => if i < |rows| then ChangeRow(rows, i, f, v) else rows
    case Add => AddRow(rows)
    case Remove(i) => if CanRemove(rows) && i < |rows| then RemoveRow(rows, i) else rows
  }

  function ApplyEdits(rows: seq<AjkRow>, edits: seq<Edit>): seq<AjkRow>
    decreases |edits|
  {
    if |edits| == 0 then rows else ApplyEdits(ApplyEdit(rows, edits[0]), edits[1..])
  }

  /** However the user edits the rows, the list never becomes empty. */
  lemma {:induction false} RowsNeverEmpty(rows: seq<AjkRow>, edits: seq<Edit>)
    requires |rows| >= 1
    ensures |ApplyEdits(rows, edits)| >= 1
    decreases |edits|
  {
    if |edits| > 0 {
      var next := ApplyEdit(rows, edits[0]);
      assert |next| >= 1;
      RowsNeverEmpty(next, edits[1..]);
    }
  }

  /** A row both of whose fields are filled in. */
  predicate Complete(row: AjkRow) {
    row.name != "" && row.maxMembers != ""
  }

  /** The guard `ajkList.some(ajk => !ajk.name || !ajk.max_members)`. */
  function SomeIncomplete(rows: seq<AjkRow>): (b: bool)
    ensures b <==> exists i :: 0 <= i < |rows| && !Complete(rows[i])
    decreases |rows|
  {
    if |rows| == 0 then false
    else !Complete(rows[|rows| - 1]) || SomeIncomplete(rows[..|rows| - 1])
  }

  datatype SubmitStep = MissingDates | IncompleteRows | Send(body: EventsApi.CreateBody)

  /** The request body: the form fields, the two dates, the signed-in
      user's id ("" for none) and the rows as typed. */
  function RequestBody(f: Form, userId: string): EventsApi.CreateBody {
    EventsApi.CreateBody(f.name, f.description, f.start, f.end, userId,
      Some(seq(|f.rows|, i requires 0 <= i < |f.rows| => EventsApi.AjkInput(f.rows[i].name, f.rows[i].maxMembers))))
  }

  /** `handleSubmit` up to the request: both dates first, then every
      committee row, and only then the `POST`. */
  function Submit(f: Form, userId: string): (r: SubmitStep)
    ensures r == MissingDates <==> f.start.None? || f.end.None?
    ensures r == IncompleteRows <==> f.start.Some? && f.end.Some? && exists i :: 0 <= i < |f.rows| && !Complete(f.rows[i])
    ensures r.Send? ==> r.body == RequestBody(f, userId)
  {
    if f.start.None? || f.end.None? then MissingDates
    else if SomeIncomplete(f.rows) then IncompleteRows
    else Send(RequestBody(f, userId))
  }

  /** A request the form sends carries every row complete and in order, so
      each committee the server creates has the typed name. */
  lemma SentRowsComplete(f: Form, userId: string, i: nat)
    requires Submit(f, userId).Send?
    requires i < |f.rows|
    ensures var list := EventsApi.Submitted(Submit(f, userId).body.ajkList);
      |list| == |f.rows| && list[i].name == f.rows[i].name && list[i].name != ""
      && list[i].maxMembers == f.rows[i].maxMembers && list[i].maxMembers != ""
  {
  }

  /** The server refuses a request the form sends for missing fields
      exactly when the event name is empty: the form checks the dates
      itself and never checks the name. */
  lemma ServerRefusesOnlyEmptyName(s: Store.Store, f: Form, userId: string, uuid: nat -> string,
                                   defaults: EventsApi.EventDefaults, fault: Option<EventsApi.Step>)
    requires Submit(f, userId).Send?
    ensures EventsApi.CreateEvent(s, Some(Submit(f, userId).body), uuid, defaults, fault).0 == EventsApi.MissingFields
      <==> f.name == ""
  {
  }

  /** The form after the reply: on success it is reset to an empty name and
      description, both dates set to `now` and a single empty row; on an
      error reply it is kept as it was. */
  function AfterReply(f: Form, succeeded: bool, now: int): (r: Form)
    ensures succeeded ==> r.name == "" && r.description == "" && r.rows == [EmptyRow]
    ensures succeeded ==> r.start == Some(now) && r.end == Some(now)
    ensures !succeeded ==> r == f
  {
    if succeeded then Form("", "", Some(now), Some(now), [EmptyRow]) else f
  }

  /** A freshly reset form is not sendable until its row is filled in. */
  lemma ResetFormNeedsRow(f: Form, now: int, userId: string)
    ensures Submit(AfterReply(f, true, now), userId) == IncompleteRows
  {
    assert !Complete(AfterReply(f, true, now).rows[0]);
  }
}

=== FILE: admission.dfy ===
/** Committee admission: `POST /api/ajk/register` accepts or rejects a
    registrant into a capacity-bounded committee of the event whose
    registration token is sent in the `x-event-token` header.

    The checks run in a fixed order and the first failing one decides the
    reply: the body fields, the token header, the event lookup, the
    committee-belongs-to-event lookup, the capacity check, the duplicate
    matric-number check, and finally a single insert. */
module Admission {
  import opened Common
  import opened Store

  /** The JSON body; an empty string is a missing or empty field. */
  datatype RegisterBody = RegisterBody(
    name: string,
    matricNo: string,
    email: string,
    phone: string,
    committee: string)

  /** The store calls the handler makes, in order; a `fault` names the one
      that reports an error. */
  datatype Step = EventLookup | CommitteeLookup | CountQuery | DuplicateQuery | InsertRow

  datatype Rejection =
    | MalformedBody        // `req.json()` threw: the catch-all reply
    | MissingFields
    | MissingToken
    | UnknownEvent
    | InvalidCommittee
    | CommitteeFull
    | AlreadyRegistered
    | StoreFailure(step: Step)

  datatype Outcome =
    | Admitted(groupLink: Option<string>)
    | Rejected(reason: Rejection)

  function HttpStatus(o: Outcome): int {
    match o
    case Admitted(_) => 200
    case Rejected(why) =>
      match why
      case MalformedBody => 500
      case UnknownEvent => 404
      case StoreFailure(_) => 500
      case _ => 400
  }

  predicate Complete(b: RegisterBody) {
    b.name != "" && b.matricNo != "" && b.email != "" && b.phone != "" && b.committee != ""
  }

  /** The row the final insert writes. */
  function NewRegistration(id: string, b: RegisterBody, c: Committee, e: Event): Registration {
    Registration(id, b.name, b.matricNo, b.email, b.phone, c.id, e.id)
  }

  /** `x || null` on the event's group link. */
  function LinkOrNull(link: string): Option<string> {
    if link == "" then None else Some(link)
  }

  /** What the store-facing part of the handler decides once the event `e`
      and committee `c` are resolved. */
  function Decide(s: Store, b: RegisterBody, e: Event, c: Committee, newId: string, fault: Option<Step>): (r: (Outcome, Store))
    requires c.eventId == e.id
    ensures r.0.Rejected? ==> r.1 == s
    ensures r.0.Admitted? ==>
      && Occupancy(s.registrations, c.id, e.id) < Capacity(c)
      && (forall i :: 0 <= i < |s.registrations| ==> !SameRegistrant(b.matricNo, e.id)(s.registrations[i]))
      && r.1 == s.(registrations := s.registrations + [NewRegistration(newId, b, c, e)])
  {
    if fault == Some(CountQuery) then (Rejected(StoreFailure(CountQuery)), s)
    else if Occupancy(s.registrations, c.id, e.id) >= Capacity(c) then (Rejected(CommitteeFull), s)
    else if fault == Some(DuplicateQuery) then (Rejected(StoreFailure(DuplicateQuery)), s)
    else
      var existing := Filter(s.registrations, SameRegistrant(b.matricNo, e.id));
      // `.maybeSingle()` reports more than one row as an error
      if |existing| > 1 then (Rejected(StoreFailure(DuplicateQuery)), s)
      else if |existing| == 1 then (Rejected(AlreadyRegistered), s)
      else if fault == Some(InsertRow) then (Rejected(StoreFailure(InsertRow)), s)
      else
        FilterEmpty(s.registrations, SameRegistrant(b.matricNo, e.id));
        (Admitted(LinkOrNull(e.groupLink)), s.(registrations := s.registrations + [NewRegistration(newId, b, c, e)]))
  }

  /** The whole handler. `body` is None when the request body is not JSON;
      `token` is the `x-event-token` header ("" when absent); `newId` stands
      for `uuidv4()`. */
  function Register(s: Store, body: Option<RegisterBody>, token: string, newId: string, fault: Option<Step>): (r: (Outcome, Store))
    ensures r.0.Rejected? ==> r.1 == s
    ensures r.0.Admitted? ==>
      && body.Some? && Complete(body.value) && token != ""
      && exists e, c ::
           && e in s.events && e.token == token
           && c in s.committees && c.id == body.value.committee && c.eventId == e.id
           && Occupancy(s.registrations, c.id, e.id) < Capacity(c)
           && (forall i :: 0 <= i < |s.registrations| ==> !SameRegistrant(body.value.matricNo, e.id)(s.registrations[i]))
           && r == (Admitted(LinkOrNull(e.groupLink)), s.(registrations := s.registrations + [NewRegistration(newId, body.value, c, e)]))
  {
    if body.None? then (Rejected(MalformedBody), s)
    else if !Complete(body.value) then (Rejected(MissingFields), s)
    else if token == "" then (Rejected(MissingToken), s)
    else if fault == Some(EventLookup) then (Rejected(UnknownEvent), s)
    else match Single(s.events, WithToken(token))
      case None => (Rejected(UnknownEvent), s)
      case Some(e) =>
        if fault == Some(CommitteeLookup) then (Rejected(InvalidCommittee), s)
        else match Single(s.committees, CommitteeOfEvent(body.value.committee, e.id))
          case None => (Rejected(InvalidCommittee), s)
          case Some(c) => Decide(s, body.value, e, c, newId, fault)
  }

  // ---------------------------------------------------------------------
  // The order of the checks

  /** Missing fields are rejected before the store is consulted: the reply
      is the same whatever the store holds or whichever call would fail. */
  lemma FieldsCheckedFirst(s: Store, b: RegisterBody, token: string, newId: string, fault: Option<Step>)
    requires !Complete(b)
    ensures Register(s, Some(b), token, newId, fault) == (Rejected(MissingFields), s)
    ensures HttpStatus(Register(s, Some(b), token, newId, fault).0) == 400
  {
  }

  /** A missing token header gives 400; a token that no event carries as
      its registration token gives 404; neither writes anything. */
  lemma TokenChecked(s: Store, b: RegisterBody, token: string, newId: string, fault: Option<Step>)
    requires Complete(b)
    ensures token == "" ==> Register(s, Some(b), token, newId, fault) == (Rejected(MissingToken), s)
    ensures token != "" && (forall i :: 0 <= i < |s.events| ==> s.events[i].token != token) ==>
      Register(s, Some(b), token, newId, fault) == (Rejected(UnknownEvent), s)
      && HttpStatus(Register(s, Some(b), token, newId, fault).0) == 404
  {
    if token != "" && (forall i :: 0 <= i < |s.events| ==> s.events[i].token != token) {
      SingleNone(s.events, WithToken(token));
    }
  }

  /** A committee that exists only under another event is rejected as an
      invalid selection, not admitted (cross-event isolation). */
  lemma ForeignCommitteeRejected(s: Store, b: RegisterBody, e: Event, newId: string, fault: Option<Step>)
    requires Complete(b)
    requires Single(s.events, WithToken(e.token)) == Some(e) && e.token != ""
    requires forall i :: 0 <= i < |s.committees| && s.committees[i].id == b.committee ==> s.committees[i].eventId != e.id
    requires fault != Some(EventLookup)
    ensures Register(s, Some(b), e.token, newId, fault) == (Rejected(InvalidCommittee), s)
  {
    SingleNone(s.committees, CommitteeOfEvent(b.committee, e.id));
  }

  /** The capacity check comes before the duplicate check: a registrant who
      already holds a place in the event and asks for a full committee is
      told the committee is full. */
  lemma FullBeforeDuplicate(s: Store, b: RegisterBody, e: Event, c: Committee, newId: string)
    requires Complete(b) && e.token != ""
    requires Single(s.events, WithToken(e.token)) == Some(e)
    requires Single(s.committees, CommitteeOfEvent(b.committee, e.id)) == Some(c)
    requires exists i :: 0 <= i < |s.registrations| && SameRegistrant(b.matricNo, e.id)(s.registrations[i])
    requires Occupancy(s.registrations, c.id, e.id) >= Capacity(c)
    ensures Register(s, Some(b), e.token, newId, None) == (Rejected(CommitteeFull), s)
  {
  }

  /** A matric number already registered anywhere in the event is refused,
      whichever committee it is in, as long as the requested committee has
      room. */
  lemma DuplicateInEventRejected(s: Store, b: RegisterBody, e: Event, c: Committee, newId: string)
    requires OneRegistrationPerEvent(s)
    requires Complete(b) && e.token != ""
    requires Single(s.events, WithToken(e.token)) == Some(e)
    requires Single(s.committees, CommitteeOfEvent(b.committee, e.id)) == Some(c)
    requires exists i :: 0 <= i < |s.registrations| && SameRegistrant(b.matricNo, e.id)(s.registrations[i])
    requires Occupancy(s.registrations, c.id, e.id) < Capacity(c)
    ensures Register(s, Some(b), e.token, newId, None) == (Rejected(AlreadyRegistered), s)
  {
    var p := SameRegistrant(b.matricNo, e.id);
    var i :| 0 <= i < |s.registrations| && p(s.registrations[i]);
    var m := Filter(s.registrations, p);
    assert s.registrations[i] in m;
    if |m| > 1 {
      AtMostOneMatch(s.registrations, b.matricNo, e.id);
    }
  }

  /** Under the one-registration-per-event guarantee the duplicate lookup
      never sees more than one row. */
  lemma {:induction false} AtMostOneMatch(regs: seq<Registration>, matricNo: string, eventId: string)
    requires forall i, j :: 0 <= i < j < |regs| ==> regs[i].eventId != regs[j].eventId || regs[i].matricNo != regs[j].matricNo
    ensures |Filter(regs, SameRegistrant(matricNo, eventId))| <= 1
    decreases |regs|
  {
    if |regs| > 0 {
      var init, last := regs[..|regs| - 1], regs[|regs| - 1];
      var p := SameRegistrant(matricNo, eventId);
      AtMostOneMatch(init, matricNo, eventId);
      assert regs == init + [last];
      FilterSnoc(init, last, p);
      if p(last) {
        forall k | 0 <= k < |init| ensures !p(init[k]) {
          assert regs[k] == init[k];
        }
        FilterEmpty(init, p);
      }
    }
  }

  /** The same matric number in another event does not block admission:
      only registrations of the resolved event are compared. */
  lemma OtherEventsDoNotBlock(s: Store, b: RegisterBody, e: Event, c: Committee, newId: string)
    requires Complete(b) && e.token != ""
    requires Single(s.events, WithToken(e.token)) == Some(e)
    requires Single(s.committees, CommitteeOfEvent(b.committee, e.id)) == Some(c)
    requires Occupancy(s.registrations, c.id, e.id) < Capacity(c)
    requires forall i :: 0 <= i < |s.registrations| && s.registrations[i].matricNo == b.matricNo ==> s.registrations[i].eventId != e.id
    ensures Register(s, Some(b), e.token, newId, None).0 == Admitted(LinkOrNull(e.groupLink))
  {
    assert Register(s, Some(b), e.token, newId, None) == Decide(s, b, e, c, newId, None);
    FreshRegistrantAdmitted(s, b, e, c, newId);
  }

  /** A registrant with no registration in the event, asking for a
      committee with room, is admitted. */
  lemma FreshRegistrantAdmitted(s: Store, b: RegisterBody, e: Event, c: Committee, newId: string)
    requires c.eventId == e.id
    requires Occupancy(s.registrations, c.id, e.id) < Capacity(c)
    requires forall i :: 0 <= i < |s.registrations| && s.registrations[i].matricNo == b.matricNo ==> s.registrations[i].eventId != e.id
    ensures Decide(s, b, e, c, newId, None).0 == Admitted(LinkOrNull(e.groupLink))
  {
    FilterEmpty(s.registrations, SameRegistrant(b.matricNo, e.id));
    assert Filter(s.registrations, SameRegistrant(b.matricNo, e.id)) == [];
  }

  // ---------------------------------------------------------------------
  // The guarantees

  /** An admission leaves the target committee at or under its capacity and
      changes no other committee's count. */
  lemma AdmissionRespectsCapacity(s: Store, body: Option<RegisterBody>, token: string, newId: string, fault: Option<Step>, k: nat)
    requires k < |s.committees|
    requires Register(s, body, token, newId, fault).0.Admitted?
    ensures var s' := Register(s, body, token, newId, fault).1;
      var c := s.committees[k];
      Occupancy(s'.registrations, c.id, c.eventId) == Occupancy(s.registrations, c.id, c.eventId)
      || (Occupancy(s'.registrations, c.id, c.eventId) == Occupancy(s.registrations, c.id, c.eventId) + 1
          && Occupancy(s'.registrations, c.id, c.eventId) <= Capacity(c))
  {
    var b := body.value;
    var e := Single(s.events, WithToken(token)).value;
    var t := Single(s.committees, CommitteeOfEvent(b.committee, e.id)).value;
    var n := NewRegistration(newId, b, t, e);
    var c := s.committees[k];
    OccupancySnoc(s.registrations, n, c.id, c.eventId);
    if n.ajkId == c.id && n.eventId == c.eventId {
      assert CommitteeOfEvent(b.committee, e.id)(c);
      assert c == t;
    }
  }

  /** Admission keeps both guarantees: no committee over capacity, no
      matric number twice in one event. */
  lemma RegisterPreservesInvariant(s: Store, body: Option<RegisterBody>, token: string, newId: string, fault: Option<Step>)
    requires AdmissionInvariant(s)
    ensures AdmissionInvariant(Register(s, body, token, newId, fault).1)
  {
    var r := Register(s, body, token, newId, fault);
    if r.0.Admitted? {
      var s' := r.1;
      forall k | 0 <= k < |s'.committees|
        ensures var c := s'.committees[k];
          Occupancy(s'.registrations, c.id, c.eventId) == 0
          || Occupancy(s'.registrations, c.id, c.eventId) <= Capacity(c)
      {
        AdmissionRespectsCapacity(s, body, token, newId, fault, k);
      }
      var b := body.value;
      var e := Single(s.events, WithToken(token)).value;
      var t := Single(s.committees, CommitteeOfEvent(b.committee, e.id)).value;
      var n := NewRegistration(newId, b, t, e);
      assert s'.registrations == s.registrations + [n];
      forall i, j | 0 <= i < j < |s'.registrations|
        ensures s'.registrations[i].eventId != s'.registrations[j].eventId
             || s'.registrations[i].matricNo != s'.registrations[j].matricNo
      {
        if j == |s.registrations| {
          assert !SameRegistrant(b.matricNo, e.id)(s.registrations[i]);
        }
      }
    }
  }

  /** One registration attempt: the body, the header, the id the handler
      would draw and the store call that fails, if any. */
  datatype Attempt = Attempt(body: Option<RegisterBody>, token: string, newId: string, fault: Option<Step>)

  /** Handle a series of attempts one after another. */
  function RegisterAll(s: Store, attempts: seq<Attempt>): (s': Store)
    ensures s'.events == s.events && s'.committees == s.committees && s'.users == s.users
    decreases |attempts|
  {
    if |attempts| == 0 then s
    else
      var a := attempts[0];
      RegisterAll(Register(s, a.body, a.token, a.newId, a.fault).1, attempts[1..])
  }

  /** The two guarantees hold after any sequence of attempts handled one at
      a time (the model is sequential: the three separate store calls of the
      source are not atomic under concurrency). */
  lemma {:induction false} RegisterAllPreservesInvariant(s: Store, attempts: seq<Attempt>)
    requires AdmissionInvariant(s)
    ensures AdmissionInvariant(RegisterAll(s, attempts))
    decreases |attempts|
  {
    if |attempts| > 0 {
      var a := attempts[0];
      RegisterPreservesInvariant(s, a.body, a.token, a.newId, a.fault);
      RegisterAllPreservesInvariant(Register(s, a.body, a.token, a.newId, a.fault).1, attempts[1..]);
    }
  }

  /** Sending the same request again after it succeeded never admits a
      second time: the retry is refused as a duplicate, or, when the first
      admission filled the committee, as full (the capacity check runs
      first). */
  lemma RetryIsRefused(s: Store, b: RegisterBody, token: string, id1: string, id2: string)
    requires Register(s, Some(b), token, id1, None).0.Admitted?
    ensures var s1 := Register(s, Some(b), token, id1, None).1;
      var o := Register(s1, Some(b), token, id2, None).0;
      o == Rejected(AlreadyRegistered) || o == Rejected(CommitteeFull)
  {
    var e := Single(s.events, WithToken(token)).value;
    var c := Single(s.committees, CommitteeOfEvent(b.committee, e.id)).value;
    var s1 := Register(s, Some(b), token, id1, None).1;
    AdmissionRecordsRegistrant(s, b, e, c, id1);
    assert Register(s, Some(b), token, id1, None) == Decide(s, b, e, c, id1, None);
    assert s1.events == s.events && s1.committees == s.committees;
    assert Register(s1, Some(b), token, id2, None) == Decide(s1, b, e, c, id2, None);
    KnownRegistrantRefused(s1, b, e, c, id2);
  }

  /** After an admission the registrant has exactly one registration in
      the event. */
  lemma AdmissionRecordsRegistrant(s: Store, b: RegisterBody, e: Event, c: Committee, newId: string)
    requires c.eventId == e.id
    requires Decide(s, b, e, c, newId, None).0.Admitted?
    ensures |Filter(Decide(s, b, e, c, newId, None).1.registrations, SameRegistrant(b.matricNo, e.id))| == 1
  {
    var n := NewRegistration(newId, b, c, e);
    var p := SameRegistrant(b.matricNo, e.id);
    FilterSnoc(s.registrations, n, p);
    FilterEmpty(s.registrations, p);
  }

  /** A registrant already registered once in the event is never admitted
      again. */
  lemma KnownRegistrantRefused(s: Store, b: RegisterBody, e: Event, c: Committee, newId: string)
    requires c.eventId == e.id
    requires |Filter(s.registrations, SameRegistrant(b.matricNo, e.id))| == 1
    ensures var o := Decide(s, b, e, c, newId, None).0;
      o == Rejected(AlreadyRegistered) || o == Rejected(CommitteeFull)
  {
  }

  /** The success reply carries the event's group link, or null when the
      event has none. */
  lemma GroupLinkReturned(s: Store, body: Option<RegisterBody>, token: string, newId: string, fault: Option<Step>)
    requires Register(s, body, token, newId, fault).0.Admitted?
    ensures var e := Single(s.events, WithToken(token)).value;
      Register(s, body, token, newId, fault).0.groupLink == (if e.groupLink == "" then None else Some(e.groupLink))
  {
  }
}

=== FILE: availability.dfy ===
/** `GET /api/ajk?token=…`: the committees of an event with the number of
    places still open, `available_members = max_members - count`.

    The event is looked up by its `ajk_token` column, not by the
    registration `token` the admission check uses. The counts are tallied
    from the event's registrations in one pass, skipping registrations with
    an empty committee reference. Nothing is clamped: an over-full committee
    would report a negative number. The handler only reads the store. */
module Availability {
  import opened Common
  import opened Store

  datatype Step = EventLookup | CommitteeQuery | RegistrationQuery

  /** One element of the reply: the committee row and its open places. */
  datatype Entry = Entry(id: string, name: string, maxMembers: Option<int>, available: int)

  datatype Reply =
    | Listed(entries: seq<Entry>)
    | MissingToken
    | EventNotFound
    | StoreFailure(step: Step)

  function HttpStatus(r: Reply): int {
    match r
    case Listed(_) => 200
    case MissingToken => 400
    case EventNotFound => 404
    case StoreFailure(_) => 500
  }

  /** `ajkCounts[k] || 0`. */
  function CountOf(counts: map<string, nat>, k: string): nat {
    if k in counts then counts[k] else 0
  }

  /** One step of the `forEach`: a registration with a committee reference
      bumps that committee's count. */
  function Bump(counts: map<string, nat>, r: Registration): map<string, nat> {
    if r.ajkId != "" then counts[r.ajkId := CountOf(counts, r.ajkId) + 1] else counts
  }

  /** The counts after the `forEach` over `regs`, starting from `{}`. */
  function Tally(regs: seq<Registration>): map<string, nat>
    decreases |regs|
  {
    if |regs| == 0 then map[]
    else Bump(Tally(regs[..|regs| - 1]), regs[|regs| - 1])
  }

  /** The `ajkList.map(…)` building the reply. */
  function Entries(committees: seq<Committee>, counts: map<string, nat>): (es: seq<Entry>)
    ensures |es| == |committees|
    ensures forall i :: 0 <= i < |es| ==>
      es[i].id == committees[i].id && es[i].name == committees[i].name
      && es[i].maxMembers == committees[i].maxMembers
    ensures forall i :: 0 <= i < |es| ==>
      es[i].available == Capacity(committees[i]) - CountOf(counts, committees[i].id)
  {
    seq(|committees|, i requires 0 <= i < |committees| =>
      var c := committees[i];
      Entry(c.id, c.name, c.maxMembers, Capacity(c) - CountOf(counts, c.id)))
  }

  /** The handler; `token` is the query parameter ("" when absent). */
  function ListCommittees(s: Store, token: string, fault: Option<Step>): (r: Reply)
    ensures token == "" <==> r == MissingToken
    ensures token != "" && Single(s.events, WithAjkToken(token)).None? ==> r == EventNotFound
    ensures r.Listed? <==> token != "" && fault.None? && Single(s.events, WithAjkToken(token)).Some?
    ensures r.Listed? ==>
      Single(s.events, WithAjkToken(token)).Some?
      && var e := Single(s.events, WithAjkToken(token)).value;
      var cs := Filter(s.committees, ListedUnder(e.id));
      && |r.entries| == |cs|
      && forall i :: 0 <= i < |cs| ==>
           && r.entries[i].id == cs[i].id && r.entries[i].name == cs[i].name
           && r.entries[i].maxMembers == cs[i].maxMembers
           && cs[i].eventId == e.id && cs[i] in s.committees
  {
    if token == "" then MissingToken
    else if fault == Some(EventLookup) then EventNotFound
    else match Single(s.events, WithAjkToken(token))
      case None => EventNotFound
      case Some(e) =>
        // the committee query, then the registration query
        if fault.Some? then StoreFailure(fault.value)
        else
          var committees := Filter(s.committees, ListedUnder(e.id));
          var counts := Tally(Filter(s.registrations, InEvent(e.id)));
          Listed(Entries(committees, counts))
  }

  // ---------------------------------------------------------------------
  // The projection against the admission's count

  /** The one-pass tally over an event's registrations gives, for every
      non-empty committee id, exactly the count the admission check uses;
      registrations with an empty committee reference are never counted. */
  lemma {:induction false} TallyIsOccupancy(regs: seq<Registration>, eventId: string, k: string)
    ensures CountOf(Tally(Filter(regs, InEvent(eventId))), k)
         == (if k == "" then 0 else Occupancy(regs, k, eventId))
    decreases |regs|
  {
    if |regs| > 0 {
      var init, last := regs[..|regs| - 1], regs[|regs| - 1];
      TallyIsOccupancy(init, eventId, k);
      var f := Filter(init, InEvent(eventId));
      if InEvent(eventId)(last) {
        assert Filter(regs, InEvent(eventId)) == f + [last];
        assert (f + [last])[..|f|] == f;
      } else {
        assert Filter(regs, InEvent(eventId)) == f;
      }
    }
  }

  /** `available_members` is the committee's capacity minus the number of
      its registrations, for every committee the reply lists. */
  lemma AvailableIsCapacityMinusCount(s: Store, token: string, i: nat)
    requires ListCommittees(s, token, None).Listed?
    requires i < |ListCommittees(s, token, None).entries|
    ensures var e := Single(s.events, WithAjkToken(token)).value;
      var c := Filter(s.committees, ListedUnder(e.id))[i];
      var a := ListCommittees(s, token, None).entries[i].available;
      a == Capacity(c) - (if c.id == "" then 0 else Occupancy(s.registrations, c.id, e.id))
  {
    var e := Single(s.events, WithAjkToken(token)).value;
    var c := Filter(s.committees, ListedUnder(e.id))[i];
    TallyIsOccupancy(s.registrations, e.id, c.id);
  }

  /** A committee nobody has joined reports all its places as open. */
  lemma EmptyCommitteeFullyAvailable(s: Store, token: string, i: nat)
    requires ListCommittees(s, token, None).Listed?
    requires i < |ListCommittees(s, token, None).entries|
    requires var e := Single(s.events, WithAjkToken(token)).value;
      var c := Filter(s.committees, ListedUnder(e.id))[i];
      forall j :: 0 <= j < |s.registrations| ==> s.registrations[j].ajkId != c.id
    ensures var e := Single(s.events, WithAjkToken(token)).value;
      var c := Filter(s.committees, ListedUnder(e.id))[i];
      ListCommittees(s, token, None).entries[i].available == Capacity(c)
  {
    AvailableIsCapacityMinusCount(s, token, i);
  }

  /** The listing shows an open place exactly when the admission check's
      capacity test would let a registrant into that committee. */
  lemma AvailabilityAgreesWithAdmission(s: Store, token: string, i: nat)
    requires ListCommittees(s, token, None).Listed?
    requires i < |ListCommittees(s, token, None).entries|
    requires ListCommittees(s, token, None).entries[i].id != ""
    ensures var e := Single(s.events, WithAjkToken(token)).value;
      var c := Filter(s.committees, ListedUnder(e.id))[i];
      ListCommittees(s, token, None).entries[i].available > 0
      <==> Occupancy(s.registrations, c.id, e.id) < Capacity(c)
  {
    AvailableIsCapacityMinusCount(s, token, i);
  }

  /** While the capacity guarantee holds, an occupied committee never shows
      a negative number of open places. */
  lemma OccupiedNeverNegative(s: Store, token: string, i: nat)
    requires CapacityRespected(s)
    requires ListCommittees(s, token, None).Listed?
    requires i < |ListCommittees(s, token, None).entries|
    requires var e := Single(s.events, WithAjkToken(token)).value;
      var c := Filter(s.committees, ListedUnder(e.id))[i];
      c.id != "" && Occupancy(s.registrations, c.id, e.id) > 0
    ensures ListCommittees(s, token, None).entries[i].available >= 0
  {
    AvailableIsCapacityMinusCount(s, token, i);
    var e := Single(s.events, WithAjkToken(token)).value;
    var c := Filter(s.committees, ListedUnder(e.id))[i];
    var k :| 0 <= k < |s.committees| && s.committees[k] == c;
  }

  /** The listing resolves the event by its committee token only: an event
      reachable only through its registration token is not found. */
  lemma ListingUsesAjkToken(s: Store, token: string, fault: Option<Step>)
    requires token != ""
    requires forall i :: 0 <= i < |s.events| ==> s.events[i].ajkToken != token
    ensures ListCommittees(s, token, fault) == EventNotFound
  {
    SingleNone(s.events, WithAjkToken(token));
  }
}

=== FILE: common.dfy ===
/** Shared vocabulary: an optional value, and filtering of row lists.

    A store query such as `.eq("token", t)` selects the rows of a table that
    satisfy a predicate, in table order; `Filter` is that selection. */
module Common {

  datatype Option<+T> = None | Some(value: T)

  /** The rows of `xs` that satisfy `p`, in their original order. */
  function Filter<T>(xs: seq<T>, p: T -> bool): (r: seq<T>)
    ensures |r| <= |xs|
    ensures forall i :: 0 <= i < |r| ==> r[i] in xs && p(r[i])
    ensures forall i :: 0 <= i < |xs| && p(xs[i]) ==> xs[i] in r
    decreases |xs|
  {
    if |xs| == 0 then []
    else Filter(xs[..|xs| - 1], p) + (if p(xs[|xs| - 1]) then [xs[|xs| - 1]] else [])
  }

  /** Selecting from a table with one more row at the end selects from the
      old table, then possibly the new row. */
  lemma FilterSnoc<T>(xs: seq<T>, x: T, p: T -> bool)
    ensures Filter(xs + [x], p) == Filter(xs, p) + (if p(x) then [x] else [])
  {
    assert (xs + [x])[..|xs|] == xs;
  }

  /** A selection keeps each matching row as often as the table holds it,
      and no other row. */
  lemma {:induction false} FilterCounts<T>(xs: seq<T>, p: T -> bool)
    ensures forall x :: multiset(Filter(xs, p))[x] == if p(x) then multiset(xs)[x] else 0
    decreases |xs|
  {
    if |xs| > 0 {
      FilterCounts(xs[..|xs| - 1], p);
      assert xs == xs[..|xs| - 1] + [xs[|xs| - 1]];
    }
  }

  /** A selection that finds nothing means no row satisfies the predicate. */
  lemma FilterEmpty<T>(xs: seq<T>, p: T -> bool)
    ensures Filter(xs, p) == [] <==> forall i :: 0 <= i < |xs| ==> !p(xs[i])
  {
    if Filter(xs, p) == [] {
      forall i | 0 <= i < |xs| ensures !p(xs[i]) {
        assert xs[i] in xs;
      }
    } else {
      var y := Filter(xs, p)[0];
      assert y in Filter(xs, p);
      var i :| 0 <= i < |xs| && xs[i] == y;
    }
  }

  /** The lookup the store client calls `.single()`: the matching row when
      there is exactly one, otherwise an error (modelled as None). */
  function Single<T>(xs: seq<T>, p: T -> bool): (r: Option<T>)
    ensures r.Some? ==> r.value in xs && p(r.value)
    ensures r.Some? ==> forall i :: 0 <= i < |xs| && p(xs[i]) ==> xs[i] == r.value
    ensures r.Some? <==> |Filter(xs, p)| == 1
  {
    var m := Filter(xs, p);
    if |m| == 1 then
      Some(m[0])
    else None
  }

  /** A predicate that no row satisfies makes `.single()` fail. */
  lemma SingleNone<T>(xs: seq<T>, p: T -> bool)
    requires forall i :: 0 <= i < |xs| ==> !p(xs[i])
    ensures Single(xs, p) == None
  {
    FilterEmpty(xs, p);
  }
}

=== FILE: events_api.dfy ===
/** `/api/events`: listing an organiser's events (`GET`) and creating an
    event together with its committees (`POST`). */
module EventsApi {
  import opened Common
  import opened JsText
  import opened Store

  // ---------------------------------------------------------------------
  // GET: the events one user created, earliest start first

  predicate SortedByStart(es: seq<Event>) {
    forall i, j :: 0 <= i < j < |es| ==> es[i].startDate <= es[j].startDate
  }

  /** Insert `x` into a start-ordered list, before the first later event. */
  function InsertByStart(x: Event, es: seq<Event>): (r: seq<Event>)
    requires SortedByStart(es)
    ensures SortedByStart(r)
    ensures multiset(r) == multiset(es) + multiset{x}
    ensures |r| == |es| + 1 && (r[0] == x || (|es| > 0 && r[0] == es[0]))
    decreases |es|
  {
    if |es| == 0 then [x]
    else if x.startDate <= es[0].startDate then [x] + es
    else
      var rest := InsertByStart(x, es[1..]);
      assert es == [es[0]] + es[1..];
      [es[0]] + rest
  }

  /** `.order("start_date", { ascending: true })`. The store leaves the
      order of events with equal start dates unspecified; this is one
      admissible order. */
  function SortByStart(es: seq<Event>): (r: seq<Event>)
    ensures SortedByStart(r)
    ensures multiset(r) == multiset(es)
    decreases |es|
  {
    if |es| == 0 then []
    else
      assert es == [es[0]] + es[1..];
      InsertByStart(es[0], SortByStart(es[1..]))
  }

  datatype ListReply = Events(rows: seq<Event>) | MissingUserId | ListFailure

  function ListStatus(r: ListReply): int {
    match r
    case Events(_) => 200
    case MissingUserId => 400
    case ListFailure => 500
  }

  /** `GET /api/events?user_id=…`; `fault` is an error from the store. */
  function ListEvents(s: Store, userId: string, fault: bool): (r: ListReply)
    ensures userId == "" <==> r == MissingUserId
    ensures r.Events? <==> userId != "" && !fault
    ensures ListStatus(r) == 500 <==> userId != "" && fault
    ensures r.Events? ==> SortedByStart(r.rows)
    ensures r.Events? ==> multiset(r.rows) == multiset(Filter(s.events, OwnedBy(userId)))
  {
    if userId == "" then MissingUserId
    else if fault then ListFailure
    else Events(SortByStart(Filter(s.events, OwnedBy(userId))))
  }

  /** The listing holds exactly the user's events: each listed event was
      created by the user, and each event the user created is listed. */
  lemma ListedAreExactlyOwned(s: Store, userId: string)
    requires userId != ""
    ensures var rows := ListEvents(s, userId, false).rows;
      && (forall i :: 0 <= i < |rows| ==> rows[i] in s.events && rows[i].createdBy == userId)
      && (forall i :: 0 <= i < |s.events| && s.events[i].createdBy == userId ==> s.events[i] in rows)
  {
    var rows := ListEvents(s, userId, false).rows;
    var owned := Filter(s.events, OwnedBy(userId));
    forall i | 0 <= i < |rows| ensures rows[i] in s.events && rows[i].createdBy == userId {
      assert rows[i] in multiset(rows);
      assert rows[i] in multiset(owned);
    }
    forall i | 0 <= i < |s.events| && s.events[i].createdBy == userId ensures s.events[i] in rows {
      assert s.events[i] in owned;
      assert s.events[i] in multiset(owned);
      assert s.events[i] in multiset(rows);
    }
  }

  // ---------------------------------------------------------------------
  // POST: create an event and its committees

  /** One entry of the submitted `ajk_list`: the committee name and the
      capacity as typed in the form. */
  datatype AjkInput = AjkInput(name: string, maxMembers: string)

  /** The JSON body. A missing date is None; `ajkList` is None when absent
      or not an array. */
  datatype CreateBody = CreateBody(
    name: string,
    description: string,
    startDate: Option<int>,
    endDate: Option<int>,
    createdBy: string,
    ajkList: Option<seq<AjkInput>>)

  /** Columns of the new event row that the database fills in itself: the
      handler does not set them. */
  datatype EventDefaults = EventDefaults(token: string, ajkToken: string, groupLink: string)

  datatype Step = EventInsert | CommitteeInsert

  datatype CreateReply =
    | Created(event: Event)
    | MissingFields
    | UnreadableBody     // `req.json()` throws outside any try: the framework's 500
    | CreateFailure(step: Step)

  function CreateStatus(r: CreateReply): int {
    match r
    case Created(_) => 200
    case MissingFields => 400
    case _ => 500
  }

  /** The committee rows `ajk_list.map(…)` builds; `uuid(1 + i)` is the id
      drawn for entry `i`. */
  function CommitteeRows(list: seq<AjkInput>, eventId: string, uuid: nat -> string): (rows: seq<Committee>)
    ensures |rows| == |list|
    ensures forall i :: 0 <= i < |list| ==>
      rows[i] == Committee(uuid(1 + i), eventId, list[i].name, ParseInt(list[i].maxMembers))
  {
    seq(|list|, i requires 0 <= i < |list| =>
      Committee(uuid(1 + i), eventId, list[i].name, ParseInt(list[i].maxMembers)))
  }

  /** The entries that are inserted: none unless `ajk_list` is a non-empty
      array. */
  function Submitted(list: Option<seq<AjkInput>>): seq<AjkInput> {
    match list
    case Some(l) => l
    case None => []
  }

  /** `POST /api/events`. `uuid(n)` is the value of the n-th `uuidv4()` call:
      `uuid(0)` names the event. */
  function CreateEvent(s: Store, body: Option<CreateBody>, uuid: nat -> string, defaults: EventDefaults, fault: Option<Step>): (r: (CreateReply, Store))
    ensures r.0.MissingFields? <==>
      body.Some? && (body.value.name == "" || body.value.startDate.None? || body.value.endDate.None?)
    ensures r.0 == MissingFields || r.0 == UnreadableBody || r.0 == CreateFailure(EventInsert) ==> r.1 == s
    ensures r.0 == CreateFailure(CommitteeInsert) || r.0.Created? ==>
      && r.1.registrations == s.registrations && r.1.users == s.users
      && |r.1.events| == |s.events| + 1 && r.1.events[..|s.events|] == s.events
      && r.1.events[|s.events|].id == uuid(0)
    ensures r.0 == CreateFailure(CommitteeInsert) ==> r.1.committees == s.committees
    ensures r.0.Created? <==>
      && body.Some? && body.value.name != "" && body.value.startDate.Some? && body.value.endDate.Some?
      && fault != Some(EventInsert)
      && (fault != Some(CommitteeInsert) || |Submitted(body.value.ajkList)| == 0)
    ensures CreateStatus(r.0) == 400 <==> r.0.MissingFields?
    ensures CreateStatus(r.0) == 500 <==> body.None? || r.0.CreateFailure?
    ensures r.0.Created? ==>
      && r.0.event == r.1.events[|s.events|]
      && body.Some?
      && |r.1.committees| == |s.committees| + |Submitted(body.value.ajkList)|
      && r.1.committees[..|s.committees|] == s.committees
    ensures r.0 == CreateFailure(CommitteeInsert) || r.0.Created? ==>
      body.Some? && body.value.startDate.Some? && body.value.endDate.Some?
      && r.1.events[|s.events|] == Event(uuid(0), body.value.name, body.value.description,
        body.value.startDate.value, body.value.endDate.value, body.value.createdBy,
        defaults.token, defaults.ajkToken, defaults.groupLink)
  {
    if body.None? then (UnreadableBody, s)
    else
      var b := body.value;
      if b.name == "" || b.startDate.None? || b.endDate.None? then (MissingFields, s)
      else if fault == Some(EventInsert) then (CreateFailure(EventInsert), s)
      else
        var e := Event(uuid(0), b.name, b.description, b.startDate.value, b.endDate.value,
                       b.createdBy, defaults.token, defaults.ajkToken, defaults.groupLink);
        var withEvent := s.(events := s.events + [e]);
        var list := Submitted(b.ajkList);
        if |list| == 0 then (Created(e), withEvent)
        else if fault == Some(CommitteeInsert) then
          // the event row stays: nothing rolls it back
          (CreateFailure(CommitteeInsert), withEvent)
        else (Created(e), withEvent.(committees := s.committees + CommitteeRows(list, uuid(0), uuid)))
  }

  /** The created committees mirror the submitted list entry by entry: in
      order, under the new event, with the entry's name and the base-10
      `parseInt` of its capacity. */
  lemma CommitteesMirrorList(s: Store, b: CreateBody, uuid: nat -> string, defaults: EventDefaults, i: nat)
    requires CreateEvent(s, Some(b), uuid, defaults, None).0.Created?
    requires i < |Submitted(b.ajkList)|
    ensures CreateEvent(s, Some(b), uuid, defaults, None).1.committees[|s.committees| + i]
         == Committee(uuid(1 + i), uuid(0), Submitted(b.ajkList)[i].name, ParseInt(Submitted(b.ajkList)[i].maxMembers))
  {
    var r := CreateEvent(s, Some(b), uuid, defaults, None);
    var rows := CommitteeRows(Submitted(b.ajkList), uuid(0), uuid);
    assert r.1.committees == s.committees + rows;
    assert r.1.committees[|s.committees| + i] == rows[i];
  }

  /** A capacity typed as a decimal number is stored as that number. */
  lemma TypedCapacityStored(s: Store, b: CreateBody, uuid: nat -> string, defaults: EventDefaults, i: nat, n: int)
    requires CreateEvent(s, Some(b), uuid, defaults, None).0.Created?
    requires i < |Submitted(b.ajkList)|
    requires Submitted(b.ajkList)[i].maxMembers == Decimal(n)
    ensures CreateEvent(s, Some(b), uuid, defaults, None).1.committees[|s.committees| + i].maxMembers == Some(n)
  {
    ParseIntDecimal(n, "");
    assert Decimal(n) + "" == Decimal(n);
    CommitteesMirrorList(s, b, uuid, defaults, i);
  }

  /** Without an `ajk_list` only the event row is inserted. */
  lemma NoListOnlyEvent(s: Store, b: CreateBody, uuid: nat -> string, defaults: EventDefaults, fault: Option<Step>)
    requires b.name != "" && b.startDate.Some? && b.endDate.Some?
    requires Submitted(b.ajkList) == []
    requires fault != Some(EventInsert)
    ensures var r := CreateEvent(s, Some(b), uuid, defaults, fault);
      r.0.Created? && r.1.committees == s.committees && |r.1.events| == |s.events| + 1
  {
  }

  /** The committees a successful creation leaves in the store. */
  lemma CreatedCommittees(s: Store, b: CreateBody, uuid: nat -> string, defaults: EventDefaults, fault: Option<Step>)
    requires CreateEvent(s, Some(b), uuid, defaults, fault).0.Created?
    ensures CreateEvent(s, Some(b), uuid, defaults, fault).1.committees
         == s.committees + (if |Submitted(b.ajkList)| == 0 then [] else CommitteeRows(Submitted(b.ajkList), uuid(0), uuid))
  {
  }

  /** Adding committees whose ids nobody refers to keeps the capacity
      guarantee: they start empty. */
  lemma FreshCommitteesKeepCapacity(s: Store, rows: seq<Committee>)
    requires CapacityRespected(s)
    requires forall j :: 0 <= j < |rows| ==> Unused(s, rows[j].id)
    ensures CapacityRespected(s.(committees := s.committees + rows))
  {
    var s' := s.(committees := s.committees + rows);
    forall k | 0 <= k < |s'.committees|
      ensures var c := s'.committees[k];
        Occupancy(s'.registrations, c.id, c.eventId) == 0
        || Occupancy(s'.registrations, c.id, c.eventId) <= Capacity(c)
    {
      if k >= |s.committees| {
        var c := rows[k - |s.committees|];
        assert s'.committees[k] == c;
        assert Unused(s, c.id);
      } else {
        assert s'.committees[k] == s.committees[k];
      }
    }
  }

  /** Creating an event keeps both admission guarantees, provided the ids
      drawn are fresh: the new committees start empty and no registration
      changes. */
  lemma CreatePreservesInvariant(s: Store, body: Option<CreateBody>, uuid: nat -> string, defaults: EventDefaults, fault: Option<Step>)
    requires AdmissionInvariant(s)
    requires body.Some? ==> forall n :: 0 <= n <= |Submitted(body.value.ajkList)| ==> Unused(s, uuid(n))
    ensures AdmissionInvariant(CreateEvent(s, body, uuid, defaults, fault).1)
  {
    var r := CreateEvent(s, body, uuid, defaults, fault);
    if r.0.Created? || r.0 == CreateFailure(CommitteeInsert) {
      var list := Submitted(body.value.ajkList);
      var rows := if r.0.Created? && |list| > 0 then CommitteeRows(list, uuid(0), uuid) else [];
      assert r.1.committees == s.committees + rows by {
        if r.0.Created? {
          CreatedCommittees(s, body.value, uuid, defaults, fault);
        } else {
          assert rows == [];
        }
      }
      forall j | 0 <= j < |rows| ensures Unused(s, rows[j].id) {
        assert rows[j].id == uuid(1 + j);
      }
      FreshCommitteesKeepCapacity(s, rows);
      assert r.1.registrations == s.registrations;
      assert r.1.(events := s.events, users := s.users) == s.(committees := s.committees + rows);
    }
  }
}

=== FILE: events_tab.dfy ===
/** The events page's card list (app/admin/events/ExistingEventsTab.tsx):
    its own copy of the status badge, and the guard in front of deleting
    an event. */
module EventCards {
  import opened Common
  import ExistingEvents

  /** The card list's `getEventStatus`, written out separately from the
      overview tab's copy: Upcoming while a readable start lies ahead,
      Ongoing between readable dates (both ends included), Completed in
      every other case, an unreadable date included. */
  function CardStatus(now: int, start: Option<int>, end: Option<int>): (b: ExistingEvents.Badge)
    ensures b.status == ExistingEvents.Upcoming <==> start.Some? && now < start.value
    ensures b.status == ExistingEvents.Ongoing <==> start.Some? && end.Some? && start.value <= now <= end.value
    ensures b.status == ExistingEvents.Completed <==>
      !(start.Some? && now < start.value) && !(start.Some? && end.Some? && start.value <= now <= end.value)
    ensures b.color == ExistingEvents.Color(b.status)
  {
    if start.Some? && now < start.value then ExistingEvents.Badge(ExistingEvents.Upcoming, "bg-blue-500")
    else if start.Some? && now >= start.value && end.Some? && now <= end.value then
      ExistingEvents.Badge(ExistingEvents.Ongoing, "bg-green-500")
    else ExistingEvents.Badge(ExistingEvents.Completed, "bg-gray-500")
  }

  /** The two copies give the same badge for every input. */
  lemma CopiesAgree(now: int, start: Option<int>, end: Option<int>)
    ensures CardStatus(now, start, end) == ExistingEvents.EventStatus(now, start, end)
  {
  }

  /** What `handleDelete` does before the request's reply. */
  datatype DeleteStep = InvalidId | Cancelled | SendDelete(path: string)

  /** `handleDelete(id)`: an empty id is refused before anything is asked;
      otherwise the user's answer to the confirmation decides. Both tabs
      share this guard. */
  function HandleDelete(id: string, confirmed: bool): (r: DeleteStep)
    ensures r == InvalidId <==> id == ""
    ensures r.SendDelete? <==> id != "" && confirmed
    ensures r.SendDelete? ==> r.path == "/api/events/" + id && |r.path| > |"/api/events/"|
  {
    if id == "" then InvalidId
    else if !confirmed then Cancelled
    else SendDelete("/api/events/" + id)
  }

  /** The request names the event: the path ends with the id, so two ids
      never share a request. */
  lemma DeletePathNamesEvent(id: string, id': string)
    requires HandleDelete(id, true).SendDelete? && HandleDelete(id', true).SendDelete?
    ensures HandleDelete(id, true) == HandleDelete(id', true) <==> id == id'
  {
    if HandleDelete(id, true) == HandleDelete(id', true) {
      var p := "/api/events/";
      assert (p + id)[|p|..] == id;
      assert (p + id')[|p|..] == id';
    }
  }
}

=== FILE: existing_events.dfy ===
/** The admin overview tab (app/admin/ExistingEventsTab.tsx): the status
    badge of an event, the registration total of an event, and the rows
    and file name of the CSV export. */
module ExistingEvents {
  import opened Common
  import opened JsText
  import opened Store
  import Availability

  // ---------------------------------------------------------------------
  // Status badge

  datatype Status = Upcoming | Ongoing | Completed

  /** The badge colour that goes with each status. */
  function Color(s: Status): string {
    match s
    case Upcoming => "bg-blue-500"
    case Ongoing => "bg-green-500"
    case Completed => "bg-gray-500"
  }

  datatype Badge = Badge(status: Status, color: string)

  /** `getEventStatus`. Instants are integer timestamps; None is a date
      string `new Date` cannot read (NaN), against which every comparison
      is false, so such an event falls through to Completed. */
  function EventStatus(now: int, start: Option<int>, end: Option<int>): (b: Badge)
    ensures b.status == Upcoming <==> start.Some? && now < start.value
    ensures b.status == Ongoing <==> start.Some? && end.Some? && start.value <= now <= end.value
    ensures b.status == Completed <==>
      !(start.Some? && now < start.value) && !(start.Some? && end.Some? && start.value <= now <= end.value)
    ensures b.color == Color(b.status)
  {
    if start.Some? && now < start.value then Badge(Upcoming, "bg-blue-500")
    else if start.Some? && now >= start.value && end.Some? && now <= end.value then Badge(Ongoing, "bg-green-500")
    else Badge(Completed, "bg-gray-500")
  }

  /** An event whose start cannot be read is always shown as completed. */
  lemma UnreadableStartCompleted(now: int, end: Option<int>)
    ensures EventStatus(now, None, end) == Badge(Completed, "bg-gray-500")
  {
  }

  /** Over readable dates of a well-formed event (start not after end)
      time moves an event forwards only: Upcoming, then Ongoing, then
      Completed. */
  lemma StatusMonotone(now: int, later: int, start: int, end: int)
    requires now <= later && start <= end
    ensures EventStatus(now, Some(start), Some(end)).status == Ongoing ==>
      EventStatus(later, Some(start), Some(end)).status != Upcoming
    ensures EventStatus(now, Some(start), Some(end)).status == Completed ==>
      EventStatus(later, Some(start), Some(end)).status == Completed
  {
  }

  /** The `useEffect` fetch: an event with a registration token asks the
      committee listing with that token; one without is never fetched. */
  function FetchCommittees(s: Store, e: Event): (r: Option<Availability.Reply>)
    ensures r.None? <==> e.token == ""
    ensures r.Some? ==> r.value == Availability.ListCommittees(s, e.token, None)
  {
    if e.token != "" then Some(Availability.ListCommittees(s, e.token, None)) else None
  }

  /** The tab queries the listing with the registration token while the
      listing resolves committee tokens: unless some event's committee token
      equals that registration token, the fetch ends in 404 and the tab has
      no list to show or export. */
  lemma FetchMissesUnlessTokensCoincide(s: Store, e: Event)
    requires e.token != ""
    requires forall i :: 0 <= i < |s.events| ==> s.events[i].ajkToken != e.token
    ensures FetchCommittees(s, e) == Some(Availability.EventNotFound)
    ensures Availability.HttpStatus(FetchCommittees(s, e).value) == 404
  {
    Availability.ListingUsesAjkToken(s, e.token, None);
  }

  // ---------------------------------------------------------------------
  // Registration totals and the CSV export

  /** A registration as the tab holds it; "" is a missing (falsy) field. */
  datatype RegView = RegView(name: string, matricNo: string, phone: string, email: string, createdAt: string)

  /** A committee with its registrations, in display order. */
  datatype AjkView = AjkView(name: string, registrations: seq<RegView>)

  /** `getTotalRegistrations`: the `reduce` adding up the list lengths. */
  function TotalRegistrations(list: seq<AjkView>): nat
    decreases |list|
  {
    if |list| == 0 then 0
    else TotalRegistrations(list[..|list| - 1]) + |list[|list| - 1].registrations|
  }

  /** One CSV row, in column order. */
  datatype Row = Row(
    eventName: string,
    ajkName: string,
    memberName: string,
    matricNo: string,
    phone: string,
    email: string,
    registeredAt: string)

  /** The "Registered At" cell. `format` stands for parsing the timestamp
      and printing it in Malaysian local time; None is an invalid date. */
  function RegisteredAt(createdAt: string, format: string -> Option<string>): string {
    if createdAt == "" then "-"
    else match format(createdAt)
      case Some(text) => text
      case None => "-"
  }

  function MemberRow(eventName: string, ajkName: string, r: RegView, format: string -> Option<string>): Row {
    Row(OrDash(eventName), OrDash(ajkName), OrDash(r.name), OrDash(r.matricNo),
        OrDash(r.phone), OrDash(r.email), RegisteredAt(r.createdAt, format))
  }

  /** The row standing for a committee nobody has joined. */
  function Placeholder(eventName: string, ajkName: string): Row {
    Row(OrDash(eventName), OrDash(ajkName), "-", "-", "-", "-", "-")
  }

  /** The rows one committee contributes. */
  function CsvRowsOf(eventName: string, ajk: AjkView, format: string -> Option<string>): (rows: seq<Row>)
    ensures |rows| == if |ajk.registrations| == 0 then 1 else |ajk.registrations|
  {
    if |ajk.registrations| > 0 then
      seq(|ajk.registrations|, i requires 0 <= i < |ajk.registrations| =>
        MemberRow(eventName, ajk.name, ajk.registrations[i], format))
    else [Placeholder(eventName, ajk.name)]
  }

  /** The rows of all committees, committee by committee. */
  function ExportRows(eventName: string, list: seq<AjkView>, format: string -> Option<string>): seq<Row>
    decreases |list|
  {
    if |list| == 0 then []
    else CsvRowsOf(eventName, list[0], format) + ExportRows(eventName, list[1..], format)
  }

  /** `max(1, number of registrations)`, summed over the committees. */
  function RowBudget(list: seq<AjkView>): nat
    decreases |list|
  {
    if |list| == 0 then 0
    else (if |list[0].registrations| == 0 then 1 else |list[0].registrations|) + RowBudget(list[1..])
  }

  /** The number of committees nobody has joined. */
  function EmptyCommittees(list: seq<AjkView>): nat
    decreases |list|
  {
    if |list| == 0 then 0
    else (if |list[0].registrations| == 0 then 1 else 0) + EmptyCommittees(list[1..])
  }

  /** The export has one row per registration and one per empty committee. */
  lemma {:induction false} ExportRowCount(eventName: string, list: seq<AjkView>, format: string -> Option<string>)
    ensures |ExportRows(eventName, list, format)| == RowBudget(list)
    ensures RowBudget(list) == TotalRegistrations(list) + EmptyCommittees(list)
    decreases |list|
  {
    if |list| > 0 {
      ExportRowCount(eventName, list[1..], format);
      TotalFromFront(list);
    }
  }

  /** The total can be added up from the front as well as from the back. */
  lemma {:induction false} TotalFromFront(list: seq<AjkView>)
    requires |list| > 0
    ensures TotalRegistrations(list) == |list[0].registrations| + TotalRegistrations(list[1..])
    decreases |list|
  {
    if |list| > 1 {
      var init := list[..|list| - 1];
      TotalFromFront(init);
      assert init[1..] == list[1..][..|list[1..]| - 1];
      assert init[0] == list[0];
    } else {
      assert list[..0] == [];
    }
  }

  /** Exporting a list in two parts gives the rows of the first part, then
      the rows of the second: committee order is kept. */
  lemma {:induction false} ExportRowsAppend(eventName: string, a: seq<AjkView>, b: seq<AjkView>, format: string -> Option<string>)
    ensures ExportRows(eventName, a + b, format) == ExportRows(eventName, a, format) + ExportRows(eventName, b, format)
    decreases |a|
  {
    if |a| == 0 {
      assert a + b == b;
    } else {
      assert (a + b)[0] == a[0];
      assert (a + b)[1..] == a[1..] + b;
      ExportRowsAppend(eventName, a[1..], b, format);
    }
  }

  /** A committee with registrations contributes one row per registration,
      in registration order, with every falsy field shown as a dash. */
  lemma MembersInOrder(eventName: string, ajk: AjkView, format: string -> Option<string>, i: nat)
    requires i < |ajk.registrations|
    ensures var row := ExportRows(eventName, [ajk], format)[i];
      var r := ajk.registrations[i];
      && row.eventName == OrDash(eventName) && row.ajkName == OrDash(ajk.name)
      && row.memberName == OrDash(r.name) && row.matricNo == OrDash(r.matricNo)
      && row.phone == OrDash(r.phone) && row.email == OrDash(r.email)
  {
    assert ExportRows(eventName, [ajk], format) == CsvRowsOf(eventName, ajk, format) + [];
  }

  /** A committee nobody joined contributes exactly one row: the event and
      committee names, and a dash in every member column. */
  lemma EmptyCommitteePlaceholder(eventName: string, ajk: AjkView, format: string -> Option<string>)
    requires |ajk.registrations| == 0
    ensures ExportRows(eventName, [ajk], format) == [Row(OrDash(eventName), OrDash(ajk.name), "-", "-", "-", "-", "-")]
  {
  }

  /** No cell of the export is empty, given a formatter that never prints
      an empty date. */
  lemma {:induction false} NoEmptyCell(eventName: string, list: seq<AjkView>, format: string -> Option<string>)
    requires forall t :: format(t) != Some("")
    ensures forall k :: 0 <= k < |ExportRows(eventName, list, format)| ==>
      var row := ExportRows(eventName, list, format)[k];
      row.eventName != "" && row.ajkName != "" && row.memberName != "" && row.matricNo != ""
      && row.phone != "" && row.email != "" && row.registeredAt != ""
    decreases |list|
  {
    if |list| > 0 {
      NoEmptyCell(eventName, list[1..], format);
      var head := CsvRowsOf(eventName, list[0], format);
      forall k | 0 <= k < |head|
        ensures head[k].registeredAt != ""
      {
        if |list[0].registrations| > 0 {
          var r := list[0].registrations[k];
          if r.createdAt != "" && format(r.createdAt).Some? {
            assert format(r.createdAt) != Some("");
          }
        }
      }
    }
  }

  // ---------------------------------------------------------------------
  // The file name

  predicate IsAsciiAlnum(c: char) {
    ('a' <= c <= 'z') || ('A' <= c <= 'Z') || ('0' <= c <= '9')
  }

  function LowerAscii(c: char): char {
    if 'A' <= c <= 'Z' then (c as int + 32) as char else c
  }

  /** `name.replace(/[^a-z0-9]/gi, "_").toLowerCase()`: letters and digits
      kept (lower-cased), every other character replaced by an underscore. */
  function SafeName(name: string): (r: string)
    ensures |r| == |name|
    ensures forall i :: 0 <= i < |r| ==> ('a' <= r[i] <= 'z') || ('0' <= r[i] <= '9') || r[i] == '_'
    ensures forall i :: 0 <= i < |r| ==> (IsAsciiAlnum(name[i]) <==> r[i] != '_')
    ensures forall i :: 0 <= i < |r| && IsAsciiAlnum(name[i]) ==> r[i] == LowerAscii(name[i])
  {
    seq(|name|, i requires 0 <= i < |name| => if IsAsciiAlnum(name[i]) then LowerAscii(name[i]) else '_')
  }

  /** A name that is already safe is left as it is. */
  lemma SafeNameIdempotent(name: string)
    ensures SafeName(SafeName(name)) == SafeName(name)
  {
  }

  function FileName(eventName: string, date: string): string {
    SafeName(eventName) + "_registrations_" + date + ".csv"
  }

  datatype Export = Export(rows: seq<Row>, fileName: string)

  /** `handleExportCSV` up to the CSV text: nothing to export for an event
      without committees. `date` is the day part of the current ISO time. */
  function ExportCsv(eventName: string, list: seq<AjkView>, format: string -> Option<string>, date: string): (r: Option<Export>)
    ensures r.None? <==> |list| == 0
    ensures r.Some? ==> |r.value.rows| == RowBudget(list) && |r.value.rows| >= |list|
    ensures r.Some? ==> r.value.rows == ExportRows(eventName, list, format)
    ensures r.Some? ==> r.value.fileName == FileName(eventName, date)
  {
    if |list| == 0 then None
    else
      ExportRowCount(eventName, list, format);
      BudgetCoversCommittees(list);
      Some(Export(ExportRows(eventName, list, format), FileName(eventName, date)))
  }

  /** The budget gives every committee at least one row. */
  lemma {:induction false} BudgetCoversCommittees(list: seq<AjkView>)
    ensures RowBudget(list) >= |list|
    decreases |list|
  {
    if |list| > 0 {
      BudgetCoversCommittees(list[1..]);
    }
  }

  // ---------------------------------------------------------------------
  // The list the tab receives

  /** A committee as the tab stores it after the fetch. The listing reply
      carries the committee's id, name, capacity and open places; it has no
      `registrations` property, which is None here. */
  datatype Received = Received(name: string, registrations: Option<seq<RegView>>)

  /** The tab's copies of the listing's entries. */
  function ReceivedList(entries: seq<Availability.Entry>): (l: seq<Received>)
    ensures |l| == |entries|
    ensures forall i :: 0 <= i < |l| ==> l[i] == Received(entries[i].name, None)
  {
    seq(|entries|, i requires 0 <= i < |entries| => Received(entries[i].name, None))
  }

  /** `ajkLists[event.id] || []` once the fetch has settled: the reply's
      entries after a successful fetch, and nothing in every other case. */
  function TabList(s: Store, e: Event): (l: seq<Received>)
    ensures |l| > 0 ==> FetchCommittees(s, e).Some? && FetchCommittees(s, e).value.Listed?
    ensures FetchCommittees(s, e).Some? && FetchCommittees(s, e).value.Listed? ==>
      l == ReceivedList(FetchCommittees(s, e).value.entries)
  {
    match FetchCommittees(s, e)
    case Some(Listed(entries)) => ReceivedList(entries)
    case _ => []
  }

  /** `getTotalRegistrations` on what the tab holds. Reading `.length` of
      an absent property throws; None stands for the exception. */
  function TotalAsWritten(list: seq<Received>): (r: Option<nat>)
    ensures r.Some? <==> forall i :: 0 <= i < |list| ==> list[i].registrations.Some?
    decreases |list|
  {
    if |list| == 0 then Some(0)
    else
      var init := TotalAsWritten(list[..|list| - 1]);
      match list[|list| - 1].registrations
      case None => None
      case Some(regs) => if init.Some? then Some(init.value + |regs|) else None
  }

  datatype ExportOutcome = NothingToExport | ExportFailed | Exported(file: Export)

  /** Every committee of the list carries its registrations. */
  predicate AllDelivered(list: seq<Received>) {
    forall i :: 0 <= i < |list| ==> list[i].registrations.Some?
  }

  /** The committees as `handleExportCSV` reads them, once every one of
      them has its registrations. */
  function AsViews(list: seq<Received>): (l: seq<AjkView>)
    requires AllDelivered(list)
    ensures |l| == |list|
    ensures forall i :: 0 <= i < |l| ==> l[i] == AjkView(list[i].name, list[i].registrations.value)
  {
    seq(|list|, i requires 0 <= i < |list| => AjkView(list[i].name, list[i].registrations.value))
  }

  /** `handleExportCSV` on what the tab holds, its `catch` included: an
      empty list is refused, a committee without registrations makes the
      row loop throw and the export report failure, and otherwise the file
      is produced. */
  function ExportAsWritten(eventName: string, list: seq<Received>, format: string -> Option<string>, date: string): (r: ExportOutcome)
    ensures r == NothingToExport <==> |list| == 0
    ensures r == ExportFailed <==> |list| > 0 && exists i :: 0 <= i < |list| && list[i].registrations.None?
    ensures r.Exported? ==> r.file.rows == ExportRows(eventName, AsViews(list), format)
  {
    if |list| == 0 then NothingToExport
    else if !AllDelivered(list) then ExportFailed
    else Exported(ExportCsv(eventName, AsViews(list), format, date).value)
  }

  /** Every non-empty list the tab can hold came from the listing, which
      has no registrations: the total throws and the export fails. */
  lemma TabListCannotBeCounted(s: Store, e: Event, eventName: string, format: string -> Option<string>, date: string)
    requires |TabList(s, e)| > 0
    ensures TotalAsWritten(TabList(s, e)) == None
    ensures ExportAsWritten(eventName, TabList(s, e), format, date) == ExportFailed
  {
    assert TabList(s, e)[0].registrations.None?;
  }

  // The list the tab evidently expects

  function RegViewOf(r: Registration, stamp: Registration -> string): RegView {
    RegView(r.name, r.matricNo, r.phone, r.email, stamp(r))
  }

  /** The registrations of committee `ajkId` in event `eventId`, in table
      order. `stamp` gives the `created_at` column the database fills in. */
  function MembersOf(regs: seq<Registration>, ajkId: string, eventId: string, stamp: Registration -> string): (ms: seq<RegView>)
    ensures |ms| == Occupancy(regs, ajkId, eventId)
    decreases |regs|
  {
    if |regs| == 0 then []
    else
      var last := regs[|regs| - 1];
      MembersOf(regs[..|regs| - 1], ajkId, eventId, stamp)
        + (if last.ajkId == ajkId && last.eventId == eventId then [RegViewOf(last, stamp)] else [])
  }

  /** Each committee the listing shows, with its registrations in the
      event attached: what the tab's total and export read. */
  function IntendedList(s: Store, e: Event, stamp: Registration -> string): (l: seq<AjkView>)
    ensures |l| > 0 ==> FetchCommittees(s, e).Some? && FetchCommittees(s, e).value.Listed?
  {
    match FetchCommittees(s, e)
    case Some(Listed(_)) =>
      var ev := Single(s.events, WithAjkToken(e.token)).value;
      var cs := Filter(s.committees, ListedUnder(ev.id));
      seq(|cs|, i requires 0 <= i < |cs| => AjkView(cs[i].name, MembersOf(s.registrations, cs[i].id, ev.id, stamp)))
    case _ => []
  }

  /** The intended list agrees with the listing entry by entry: the same
      committees in the same order, and each one's registrations are
      exactly the places the listing reports as taken. */
  lemma IntendedListMatchesListing(s: Store, e: Event, stamp: Registration -> string, i: nat)
    requires FetchCommittees(s, e).Some? && FetchCommittees(s, e).value.Listed?
    requires i < |FetchCommittees(s, e).value.entries|
    requires FetchCommittees(s, e).value.entries[i].id != ""
    ensures var entries := FetchCommittees(s, e).value.entries;
      var ev := Single(s.events, WithAjkToken(e.token)).value;
      var c := Filter(s.committees, ListedUnder(ev.id))[i];
      var l := IntendedList(s, e, stamp);
      && |l| == |entries|
      && l[i].name == entries[i].name
      && |l[i].registrations| == Capacity(c) - entries[i].available
  {
    Availability.AvailableIsCapacityMinusCount(s, e.token, i);
  }

  /** The tab's copies of a list whose committees carry their
      registrations. */
  function Delivered(list: seq<AjkView>): (l: seq<Received>)
    ensures |l| == |list|
    ensures forall i :: 0 <= i < |l| ==> l[i] == Received(list[i].name, Some(list[i].registrations))
  {
    seq(|list|, i requires 0 <= i < |list| => Received(list[i].name, Some(list[i].registrations)))
  }

  /** Delivered with registrations, the list totals to
      `TotalRegistrations`: the `reduce` no longer throws. */
  lemma {:induction false} DeliveredTotal(list: seq<AjkView>)
    ensures TotalAsWritten(Delivered(list)) == Some(TotalRegistrations(list))
    decreases |list|
  {
    if |list| > 0 {
      var init := list[..|list| - 1];
      DeliveredTotal(init);
      assert Delivered(list)[..|list| - 1] == Delivered(init);
    }
  }

  /** Delivered with registrations, the list is totalled and exported as
      the helpers intend: the total is `TotalRegistrations`, and a
      non-empty list gives the export of `ExportCsv`. */
  lemma DeliveredListExports(list: seq<AjkView>, eventName: string, format: string -> Option<string>, date: string)
    ensures TotalAsWritten(Delivered(list)) == Some(TotalRegistrations(list))
    ensures |list| > 0 ==>
      ExportAsWritten(eventName, Delivered(list), format, date) == Exported(ExportCsv(eventName, list, format, date).value)
  {
    DeliveredTotal(list);
    AsViewsOfDelivered(list);
  }

  /** Reading back a delivered list gives the committees that were sent. */
  lemma AsViewsOfDelivered(list: seq<AjkView>)
    ensures AllDelivered(Delivered(list)) && AsViews(Delivered(list)) == list
  {
  }
}

=== FILE: jstext.dfy ===
/** The few JavaScript string primitives the application leans on:
    white space as `\s` and `parseInt` understand it, falsy-or-dash
    substitution, `split` on one character, `join` with one character, and
    `parseInt(…, 10)`. */
module JsText {
  import opened Common

  /** A JavaScript white-space or line-terminator character: the set both
      `\s` in a regular expression and the leading-space skip of `parseInt`
      use (ECMAScript WhiteSpace and LineTerminator). */
  predicate IsSpace(c: char) {
    c == '\t' || c == '\n' || c == '\U{000B}' || c == '\U{000C}' || c == '\r'
    || c == ' ' || c == '\U{00A0}' || c == '\U{1680}'
    || ('\U{2000}' <= c <= '\U{200A}')
    || c == '\U{2028}' || c == '\U{2029}' || c == '\U{202F}' || c == '\U{205F}'
    || c == '\U{3000}' || c == '\U{FEFF}'
  }

  predicate IsDigit(c: char) {
    '0' <= c <= '9'
  }

  /** `s || "-"`: an empty (falsy) string is shown as a dash. */
  function OrDash(s: string): (r: string)
    ensures r != ""
    ensures s != "" ==> r == s
  {
    if s == "" then "-" else s
  }

  // ---------------------------------------------------------------------
  // split / join on a single separator character

  /** `s.split(sep)` for a one-character separator: the maximal
      separator-free pieces, including empty ones at either end. */
  function Split(s: string, sep: char): (parts: seq<string>)
    ensures |parts| >= 1
    ensures forall i :: 0 <= i < |parts| ==> sep !in parts[i]
    decreases |s|
  {
    if |s| == 0 then [""]
    else if s[0] == sep then [""] + Split(s[1..], sep)
    else
      var rest := Split(s[1..], sep);
      [[s[0]] + rest[0]] + rest[1..]
  }

  /** `parts.join(sep)` for a one-character separator. */
  function Join(parts: seq<string>, sep: char): string
    decreases |parts|
  {
    if |parts| == 0 then ""
    else if |parts| == 1 then parts[0]
    else parts[0] + [sep] + Join(parts[1..], sep)
  }

  /** Joining the pieces of a split gives back the original string. */
  lemma {:induction false} JoinSplit(s: string, sep: char)
    ensures Join(Split(s, sep), sep) == s
    decreases |s|
  {
    if |s| == 0 {
    } else if s[0] == sep {
      var rest := Split(s[1..], sep);
      JoinSplit(s[1..], sep);
      assert ([""] + rest)[1..] == rest;
      assert s == [sep] + s[1..];
    } else {
      var rest := Split(s[1..], sep);
      JoinSplit(s[1..], sep);
      var parts := [[s[0]] + rest[0]] + rest[1..];
      if |rest| == 1 {
        assert s == [s[0]] + s[1..];
      } else {
        assert parts[1..] == rest[1..];
        assert Join(rest, sep) == rest[0] + [sep] + Join(rest[1..], sep);
        assert s == [s[0]] + s[1..];
      }
    }
  }

  /** Splitting a separator-free prefix glued to the rest extends the first
      piece of the rest. */
  lemma {:induction false} SplitPrefix(p: string, t: string, sep: char)
    requires sep !in p
    ensures Split(p + t, sep) == [p + Split(t, sep)[0]] + Split(t, sep)[1..]
    decreases |p|
  {
    if |p| == 0 {
      assert p + t == t;
      var parts := Split(t, sep);
      assert parts == [parts[0]] + parts[1..];
      assert p + parts[0] == parts[0];
    } else {
      assert (p + t)[0] == p[0];
      assert (p + t)[1..] == p[1..] + t;
      SplitPrefix(p[1..], t, sep);
      assert [p[0]] + (p[1..] + Split(t, sep)[0]) == p + Split(t, sep)[0];
    }
  }

  /** Splitting a join of separator-free pieces gives back the pieces: the
      other half of the round trip. */
  lemma {:induction false} SplitJoin(parts: seq<string>, sep: char)
    requires |parts| >= 1
    requires forall i :: 0 <= i < |parts| ==> sep !in parts[i]
    ensures Split(Join(parts, sep), sep) == parts
    decreases |parts|
  {
    if |parts| == 1 {
      SplitPrefix(parts[0], "", sep);
      assert parts[0] + "" == parts[0];
    } else {
      var tail := [sep] + Join(parts[1..], sep);
      SplitJoin(parts[1..], sep);
      assert tail[0] == sep && tail[1..] == Join(parts[1..], sep);
      assert Split(tail, sep) == [""] + parts[1..];
      assert parts[0] + [sep] + Join(parts[1..], sep) == parts[0] + tail;
      SplitPrefix(parts[0], tail, sep);
      assert parts[0] + "" == parts[0];
    }
  }

  // ---------------------------------------------------------------------
  // parseInt(s, 10)

  /** `s` without its leading white space. */
  function TrimStart(s: string): (r: string)
    ensures |r| <= |s|
    ensures r == s[|s| - |r|..]
    ensures |r| > 0 ==> !IsSpace(r[0])
    ensures forall i :: 0 <= i < |s| - |r| ==> IsSpace(s[i])
    decreases |s|
  {
    if |s| > 0 && IsSpace(s[0]) then TrimStart(s[1..]) else s
  }

  /** The longest prefix of `s` made of decimal digits. */
  function DigitPrefix(s: string): (r: string)
    ensures |r| <= |s| && r == s[..|r|]
    ensures forall i :: 0 <= i < |r| ==> IsDigit(r[i])
    ensures |r| < |s| ==> !IsDigit(s[|r|])
    decreases |s|
  {
    if |s| > 0 && IsDigit(s[0]) then [s[0]] + DigitPrefix(s[1..]) else ""
  }

  function DigitValue(c: char): nat
    requires IsDigit(c)
  {
    c as int - '0' as int
  }

  /** The value of a string of decimal digits, most significant first. */
  function DigitsValue(d: string): nat
    requires forall i :: 0 <= i < |d| ==> IsDigit(d[i])
    decreases |d|
  {
    if |d| == 0 then 0
    else 10 * DigitsValue(d[..|d| - 1]) + DigitValue(d[|d| - 1])
  }

  /** `parseInt(s, 10)`: skip leading white space, take one optional sign,
      then the longest run of digits; no digit at all gives NaN (None). */
  function ParseInt(s: string): Option<int> {
    ParseTrimmed(TrimStart(s))
  }

  /** `parseInt` once the leading white space is gone. */
  function ParseTrimmed(t: string): Option<int> {
    var negative := |t| > 0 && t[0] == '-';
    var unsigned := if |t| > 0 && (t[0] == '-' || t[0] == '+') then t[1..] else t;
    var z := DigitPrefix(unsigned);
    if z == "" then None
    else
      var magnitude: int := DigitsValue(z);
      Some(if negative then -magnitude else magnitude)
  }

  /** The decimal digits of a natural number, as `String(n)` writes them. */
  function Digits(n: nat): (r: string)
    ensures |r| >= 1
    ensures forall i :: 0 <= i < |r| ==> IsDigit(r[i])
    decreases n
  {
    if n < 10 then [('0' as int + n) as char]
    else Digits(n / 10) + [('0' as int + n % 10) as char]
  }

  /** `String(n)` for an integer. */
  function Decimal(n: int): string {
    if n < 0 then "-" + Digits(-n) else Digits(n)
  }

  lemma {:induction false} DigitsValueOfDigits(n: nat)
    ensures DigitsValue(Digits(n)) == n
    decreases n
  {
    if n >= 10 {
      var d := Digits(n);
      assert d[..|d| - 1] == Digits(n / 10);
      DigitsValueOfDigits(n / 10);
    }
  }

  /** A run of digits followed by nothing or by a non-digit is exactly the
      digit prefix. */
  lemma {:induction false} DigitPrefixOfDigits(d: string, rest: string)
    requires forall i :: 0 <= i < |d| ==> IsDigit(d[i])
    requires rest == "" || !IsDigit(rest[0])
    ensures DigitPrefix(d + rest) == d
    decreases |d|
  {
    if |d| > 0 {
      assert (d + rest)[1..] == d[1..] + rest;
      DigitPrefixOfDigits(d[1..], rest);
    }
  }

  /** `parseInt` reads back what `String` writes, even with trailing text
      that does not start with a digit (`parseInt("12 people", 10) == 12`). */
  lemma ParseIntDecimal(n: int, rest: string)
    requires rest == "" || !IsDigit(rest[0])
    ensures ParseInt(Decimal(n) + rest) == Some(n)
  {
    var m: nat := if n < 0 then -n else n;
    var d := Digits(m);
    DigitsValueOfDigits(m);
    DigitPrefixOfDigits(d, rest);
    if n < 0 {
      NegativeDecimal(d, rest);
    } else {
      UnsignedDecimal(d, rest);
    }
  }

  lemma NegativeDecimal(d: string, rest: string)
    requires |d| >= 1 && forall i :: 0 <= i < |d| ==> IsDigit(d[i])
    requires DigitPrefix(d + rest) == d
    ensures ParseInt("-" + d + rest) == Some(0 - DigitsValue(d))
  {
    var s := "-" + d + rest;
    assert s[0] == '-';
    assert TrimStart(s) == s;
    assert s[1..] == d + rest;
  }

  lemma UnsignedDecimal(d: string, rest: string)
    requires |d| >= 1 && forall i :: 0 <= i < |d| ==> IsDigit(d[i])
    requires DigitPrefix(d + rest) == d
    ensures ParseInt(d + rest) == Some(DigitsValue(d))
  {
    var s := d + rest;
    assert s[0] == d[0];
    assert !IsSpace(s[0]);
    assert TrimStart(s) == s;
  }

  /** Leading white space is skipped entirely. */
  lemma {:induction false} TrimStartSkipsSpace(w: string, s: string)
    requires forall i :: 0 <= i < |w| ==> IsSpace(w[i])
    ensures TrimStart(w + s) == TrimStart(s)
    decreases |w|
  {
    if |w| > 0 {
      assert (w + s)[0] == w[0];
      assert (w + s)[1..] == w[1..] + s;
      TrimStartSkipsSpace(w[1..], s);
    } else {
      assert w + s == s;
    }
  }

  /** Leading white space never changes what `parseInt` reads. */
  lemma ParseIntSkipsSpace(w: string, s: string)
    requires forall i :: 0 <= i < |w| ==> IsSpace(w[i])
    ensures ParseInt(w + s) == ParseInt(s)
  {
    TrimStartSkipsSpace(w, s);
  }

  /** Text whose first non-space character is neither a sign nor a digit
      reads as NaN. */
  lemma ParseIntNaN(s: string)
    requires var t := TrimStart(s); t == "" || (t[0] != '-' && t[0] != '+' && !IsDigit(t[0]))
    ensures ParseInt(s) == None
  {
  }
}

=== FILE: login_form.dfy ===
/** The login form's checks (components/login-form.tsx): the email must
    match `/\S+@\S+\.\S+/` somewhere in it, the password must have at
    least six characters, and only then is the login request made. */
module LoginForm {
  import opened JsText

  /** `\S+@\S+\.\S+` occurs in `s`: a non-space character, then `@` at
      position `at`, then one or more non-spaces ending in a `.` at
      position `dot`, then a non-space. The pattern is not anchored, and
      the shortest witnesses suffice for each `\S+`. */
  ghost predicate EmailShape(s: string) {
    exists at, dot :: ShapeAt(s, at, dot)
  }

  /** The shape at one `@` position and one `.` position. */
  ghost predicate ShapeAt(s: string, at: int, dot: int) {
    1 <= at && at + 2 <= dot && dot + 1 < |s|
    && s[at] == '@' && s[dot] == '.'
    && !IsSpace(s[at - 1]) && !IsSpace(s[dot + 1])
    && (forall k :: at < k < dot ==> !IsSpace(s[k]))
  }

  /** Looks, after the `@` at `at`, along the run of non-spaces for a `.`
      followed by a non-space. */
  method MatchAfterAt(s: string, at: nat) returns (found: bool)
    requires 1 <= at < |s| && s[at] == '@' && !IsSpace(s[at - 1])
    ensures found <==> exists dot :: at < dot < |s| && ShapeAt(s, at, dot)
  {
    var dot := at + 1;
    while dot < |s| && !IsSpace(s[dot])
      invariant at + 1 <= dot <= |s|
      invariant forall k :: at < k < dot ==> !IsSpace(s[k])
      invariant forall d :: at < d < dot ==> !ShapeAt(s, at, d)
    {
      if dot >= at + 2 && s[dot] == '.' && dot + 1 < |s| && !IsSpace(s[dot + 1]) {
        assert ShapeAt(s, at, dot);
        return true;
      }
      dot := dot + 1;
    }
    // Past a space (or the end) no `.` can follow the `@` through non-spaces.
    forall d | at < d < |s| && d >= dot
      ensures !ShapeAt(s, at, d)
    {
      assert dot < |s| && IsSpace(s[dot]);
    }
    return false;
  }

  /** The regular expression test. */
  method MatchesEmail(s: string) returns (found: bool)
    ensures found <==> EmailShape(s)
  {
    var at := 1;
    while at < |s|
      invariant 1 <= at
      invariant forall a, d :: 1 <= a < at && a < |s| ==> !ShapeAt(s, a, d)
    {
      if s[at] == '@' && !IsSpace(s[at - 1]) {
        found := MatchAfterAt(s, at);
        if found {
          return;
        }
        assert forall d :: !ShapeAt(s, at, d);
      }
      at := at + 1;
    }
    found := false;
  }

  datatype LoginStep = InvalidEmail | ShortPassword | SendLogin(email: string, password: string)

  /** `handleSubmit` up to the request; "" is a missing form value. */
  method CheckLogin(email: string, password: string) returns (r: LoginStep)
    ensures r == InvalidEmail <==> email == "" || !EmailShape(email)
    ensures r == ShortPassword <==> email != "" && EmailShape(email) && |password| < 6
    ensures r.SendLogin? ==> r == SendLogin(email, password) && EmailShape(email) && |password| >= 6
  {
    var ok := MatchesEmail(email);
    if email == "" || !ok {
      return InvalidEmail;
    }
    if password == "" || |password| < 6 {
      return ShortPassword;
    }
    return SendLogin(email, password);
  }

  /** An address of five characters the pattern accepts. */
  lemma ShortestAddress()
    ensures EmailShape("a@b.c")
  {
    assert ShapeAt("a@b.c", 1, 3);
  }

  /** Nothing shorter than five characters is accepted: `a@b.c` is a
      shortest address. */
  lemma NothingShorter(s: string)
    requires |s| < 5
    ensures !EmailShape(s)
  {
  }

  /** A string without `@` is never an email. */
  lemma NoAtNoEmail(s: string)
    requires forall k :: 0 <= k < |s| ==> s[k] != '@'
    ensures !EmailShape(s)
  {
  }

  /** `a@b c.d`, whose only `@` is followed by a space before its only
      `.`, is rejected. (A later `@` can still match: `a@b c@d.e` is
      accepted.) */
  lemma SpacedDomainRejected()
    ensures !EmailShape("a@b c.d")
  {
    var s := "a@b c.d";
    forall at, dot ensures !ShapeAt(s, at, dot) {
      if ShapeAt(s, at, dot) {
        assert at == 1 && dot == 5;
        assert IsSpace(s[3]);
      }
    }
  }
}

=== FILE: profile_api.dfy ===
/** `/api/profile`: reading a user by id (`GET`) and changing the user's
    email and/or password (`PUT`). The session token is the user's id. */
module ProfileApi {
  import opened Common
  import opened JsText
  import opened Store

  // ---------------------------------------------------------------------
  // GET

  datatype GetReply = Found(user: User) | MissingToken | NotFound

  function GetStatus(r: GetReply): int {
    match r
    case Found(_) => 200
    case MissingToken => 400
    case NotFound => 404
  }

  /** `token` is the query parameter; a store error and a missing row are
      both answered with 404. */
  function GetProfile(s: Store, token: string, fault: bool): (r: GetReply)
    ensures token == "" <==> r == MissingToken
    ensures r.Found? ==> r.user in s.users && r.user.id == token
    ensures token != "" && (forall i :: 0 <= i < |s.users| ==> s.users[i].id != token) ==> r == NotFound
    ensures r.Found? <==> token != "" && !fault && Single(s.users, HasUserId(token)).Some?
    ensures GetStatus(r) == 404 <==> token != "" && (fault || Single(s.users, HasUserId(token)).None?)
  {
    if token == "" then MissingToken
    else if fault then NotFound
    else match Single(s.users, HasUserId(token))
      case None =>
        NotFound
      case Some(u) => Found(u)
  }

  // ---------------------------------------------------------------------
  // PUT

  /** `Authorization?.split(" ")[1]`: the second space-separated part of
      the header, "" (undefined) when there is none. */
  function BearerToken(header: string): (t: string)
    ensures ' ' !in t
  {
    var parts := Split(header, ' ');
    if |parts| >= 2 then parts[1] else ""
  }

  /** The usual `Bearer <id>` header yields the id. */
  lemma BearerTokenOfScheme(scheme: string, id: string)
    requires ' ' !in scheme && ' ' !in id
    ensures BearerToken(scheme + " " + id) == id
  {
    SplitJoin([scheme, id], ' ');
    assert Join([scheme, id], ' ') == scheme + " " + id by {
      assert [scheme, id][1..] == [id];
    }
  }

  /** A header without any space carries no token. */
  lemma NoSpaceNoToken(header: string)
    requires ' ' !in header
    ensures BearerToken(header) == ""
  {
    SplitJoin([header], ' ');
  }

  /** The JSON body; "" is an absent or empty field. */
  datatype ProfileBody = ProfileBody(email: string, password: string)

  /** The fields to change. */
  datatype Payload = Payload(email: Option<string>, password: Option<string>)

  /** The conditional payload: an email only when one was given, a
      password only when one was given, and then its hash. `hash` stands
      for the SHA-256 hex digest. */
  function BuildPayload(b: ProfileBody, hash: string -> string): (p: Payload)
    ensures p.email.Some? <==> b.email != ""
    ensures p.email.Some? ==> p.email.value == b.email
    ensures p.password.Some? <==> b.password != ""
    ensures p.password.Some? ==> p.password.value == hash(b.password)
  {
    Payload(if b.email != "" then Some(b.email) else None,
            if b.password != "" then Some(hash(b.password)) else None)
  }

  function Apply(u: User, p: Payload): User {
    u.(email := if p.email.Some? then p.email.value else u.email,
       password := if p.password.Some? then p.password.value else u.password)
  }

  datatype PutReply =
    | Updated(user: User)
    | Unauthorized
    | InvalidJson
    | NothingToUpdate
    | UpdateFailure

  function PutStatus(r: PutReply): int {
    match r
    case Updated(_) => 200
    case Unauthorized => 401
    case InvalidJson => 400
    case NothingToUpdate => 400
    case UpdateFailure => 500
  }

  /** `PUT /api/profile`. `header` is the Authorization header ("" when
      absent), `body` None when not JSON, `fault` an error from the store.
      The update is matched on the id and must return exactly one row. */
  function UpdateProfile(s: Store, header: string, body: Option<ProfileBody>, hash: string -> string, fault: bool): (r: (PutReply, Store))
    ensures !r.0.Updated? ==> r.1 == s
    ensures r.1.events == s.events && r.1.committees == s.committees && r.1.registrations == s.registrations
    ensures |r.1.users| == |s.users|
    ensures r.0.Updated? ==> r.0.user.id == BearerToken(header) && r.0.user in r.1.users
    ensures BearerToken(header) != "" && body.None? ==> r == (InvalidJson, s)
    ensures r.0.Updated? <==>
      && BearerToken(header) != "" && body.Some?
      && (body.value.email != "" || body.value.password != "")
      && !fault && Single(s.users, HasUserId(BearerToken(header))).Some?
  {
    var token := BearerToken(header);
    if token == "" then (Unauthorized, s)
    else if body.None? then (InvalidJson, s)
    else
      var p := BuildPayload(body.value, hash);
      if p.email.None? && p.password.None? then (NothingToUpdate, s)
      else if fault then (UpdateFailure, s)
      else match Single(s.users, HasUserId(token))
        case None => (UpdateFailure, s)
        case Some(u) =>
          var users := seq(|s.users|, i requires 0 <= i < |s.users| =>
            if s.users[i].id == token then Apply(s.users[i], p) else s.users[i]);
          var k :| 0 <= k < |s.users| && s.users[k] == u;
          assert users[k] == Apply(u, p);
          (Updated(Apply(u, p)), s.(users := users))
  }

  /** Without a token the request is refused with 401 and nothing changes. */
  lemma NoTokenUnauthorized(s: Store, header: string, body: Option<ProfileBody>, hash: string -> string, fault: bool)
    requires BearerToken(header) == ""
    ensures UpdateProfile(s, header, body, hash, fault) == (Unauthorized, s)
    ensures PutStatus(UpdateProfile(s, header, body, hash, fault).0) == 401
  {
  }

  /** A body with neither field is refused with 400 before the store is
      touched. */
  lemma EmptyUpdateRefused(s: Store, header: string, b: ProfileBody, hash: string -> string, fault: bool)
    requires BearerToken(header) != ""
    requires b.email == "" && b.password == ""
    ensures UpdateProfile(s, header, Some(b), hash, fault) == (NothingToUpdate, s)
  {
  }

  /** Only the user whose id is the token changes, and only in the fields
      the payload carries: its id and role stay, the email and password
      become the payload's where present and stay otherwise. */
  lemma OnlyTheTokenUserChanges(s: Store, header: string, b: ProfileBody, hash: string -> string, i: nat)
    requires i < |s.users|
    requires UpdateProfile(s, header, Some(b), hash, false).0.Updated?
    ensures var users' := UpdateProfile(s, header, Some(b), hash, false).1.users;
      var u := s.users[i];
      && (u.id != BearerToken(header) ==> users'[i] == u)
      && (u.id == BearerToken(header) ==>
            && users'[i].id == u.id && users'[i].role == u.role
            && users'[i].email == (if b.email != "" then b.email else u.email)
            && users'[i].password == (if b.password != "" then hash(b.password) else u.password))
  {
  }
}

=== FILE: snippet.dfy ===
/** The copyable snippet (components/snippet.tsx): which colour variant it
    is drawn in, the lines it shows, and the text its copy button puts on
    the clipboard. */
module Snippet {
  import opened Common
  import opened JsText

  datatype SnippetType = Success | Warning | Error

  datatype VariantName = DefaultVariant | InvertedVariant | SuccessVariant | WarningVariant | ErrorVariant

  /** The class names of one variant. */
  datatype Colors = Colors(background: string, text: string, fill: string)

  /** The `variant` table. */
  function ColorsOf(v: VariantName): Colors {
    match v
    case DefaultVariant => Colors("bg-background-100", "text-gray-1000", "fill-gray-1000")
    case InvertedVariant => Colors("bg-gray-1000", "text-gray-100", "fill-gray-100")
    case SuccessVariant => Colors("bg-blue-100", "text-blue-900", "fill-blue-900")
    case WarningVariant => Colors("bg-amber-100", "text-amber-900", "fill-amber-900")
    case ErrorVariant => Colors("bg-red-100", "text-red-900", "fill-red-900")
  }

  function VariantOfType(t: SnippetType): VariantName {
    match t
    case Success => SuccessVariant
    case Warning => WarningVariant
    case Error => ErrorVariant
  }

  /** `getVariant(inverted, type)`: the dark flag wins over any type; with
      neither the default is used. */
  function GetVariant(inverted: bool, t: Option<SnippetType>): (v: VariantName)
    ensures inverted <==> v == InvertedVariant
    ensures v == DefaultVariant <==> !inverted && t.None?
    ensures !inverted && t.Some? ==> v == VariantOfType(t.value)
  {
    if inverted then InvertedVariant
    else match t
      case Some(ty) => VariantOfType(ty)
      case None => DefaultVariant
  }

  /** Every variant has its own background, so the background alone tells
      which variant `getVariant` chose. */
  lemma BackgroundIdentifiesVariant(v: VariantName, w: VariantName)
    ensures ColorsOf(v).background == ColorsOf(w).background <==> v == w
  {
  }

  /** The `text` prop: one string or a list of strings. */
  datatype Text = Single(line: string) | Many(lines: seq<string>)

  /** The lines shown, one per element. */
  function Lines(t: Text): (ls: seq<string>)
    ensures t.Single? ==> ls == [t.line]
    ensures t.Many? ==> ls == t.lines
  {
    match t
    case Single(line) => [line]
    case Many(lines) => lines
  }

  /** What the copy button writes to the clipboard. */
  function CopyText(t: Text): string {
    Join(Lines(t), '\n')
  }

  /** A single string is copied exactly as given. */
  lemma CopySingle(line: string)
    ensures CopyText(Single(line)) == line
  {
  }

  /** Copying loses nothing: splitting the clipboard text at newlines gives
      back the shown lines, as long as no line holds a newline itself and
      there is at least one line. */
  lemma CopyRecoversLines(t: Text)
    requires |Lines(t)| >= 1
    requires forall i :: 0 <= i < |Lines(t)| ==> '\n' !in Lines(t)[i]
    ensures Split(CopyText(t), '\n') == Lines(t)
  {
    SplitJoin(Lines(t), '\n');
  }

  /** The copied text of `Many` is never shorter than its lines together;
      `k - 1` newlines join `k` lines. */
  lemma {:induction false} CopyLength(lines: seq<string>)
    requires |lines| >= 1
    ensures |Join(lines, '\n')| == TotalLength(lines) + |lines| - 1
    decreases |lines|
  {
    if |lines| > 1 {
      CopyLength(lines[1..]);
    }
  }

  function TotalLength(lines: seq<string>): nat
    decreases |lines|
  {
    if |lines| == 0 then 0 else |lines[0]| + TotalLength(lines[1..])
  }
}

=== FILE: store.dfy ===
/** The relational state behind the application: the `jf_events`,
    `jf_ajk_list` (committees), `jf_registrations` and `jf_users` tables, as
    lists of rows in table order.

    An empty string stands for a NULL or empty column: every test the
    application makes on these columns is a JavaScript falsiness test, which
    does not tell the two apart. */
module Store {
  import opened Common

  /** A row of `jf_events`. `token` is the public registration token,
      `ajkToken` the separate token the committee listing is looked up by. */
  datatype Event = Event(
    id: string,
    name: string,
    description: string,
    startDate: int,
    endDate: int,
    createdBy: string,
    token: string,
    ajkToken: string,
    groupLink: string)

  /** A row of `jf_ajk_list`. `maxMembers` is None when the value sent was
      not a number (`parseInt` gave NaN, which is stored as NULL). */
  datatype Committee = Committee(
    id: string,
    eventId: string,
    name: string,
    maxMembers: Option<int>)

  /** A row of `jf_registrations`; `ajkId` and `eventId` reference the
      committee and (denormalised) its event. */
  datatype Registration = Registration(
    id: string,
    name: string,
    matricNo: string,
    email: string,
    phone: string,
    ajkId: string,
    eventId: string)

  /** A row of `jf_users`; `password` holds a hash, never the plain text. */
  datatype User = User(id: string, email: string, password: string, role: string)

  datatype Store = Store(
    events: seq<Event>,
    committees: seq<Committee>,
    registrations: seq<Registration>,
    users: seq<User>)

  /** The capacity the code compares against. JavaScript turns a NULL
      `max_members` into 0 both in `count >= max_members` and in
      `max_members - count`. */
  function Capacity(c: Committee): int {
    match c.maxMembers
    case Some(n) => n
    case None => 0
  }

  /** The number of registrations for committee `ajkId` of event `eventId`:
      the count query of the admission check. */
  function Occupancy(regs: seq<Registration>, ajkId: string, eventId: string): (n: nat)
    ensures n <= |regs|
    ensures n == 0 <==> forall i :: 0 <= i < |regs| ==> regs[i].ajkId != ajkId || regs[i].eventId != eventId
    decreases |regs|
  {
    if |regs| == 0 then 0
    else
      var last := regs[|regs| - 1];
      Occupancy(regs[..|regs| - 1], ajkId, eventId) + (if last.ajkId == ajkId && last.eventId == eventId then 1 else 0)
  }

  // Row predicates used as store filters (`.eq(column, value)`).

  function WithToken(token: string): Event -> bool {
    (e: Event) => e.token == token
  }

  function WithAjkToken(token: string): Event -> bool {
    (e: Event) => e.ajkToken == token
  }

  function OwnedBy(userId: string): Event -> bool {
    (e: Event) => e.createdBy == userId
  }

  function CommitteeOfEvent(id: string, eventId: string): Committee -> bool {
    (c: Committee) => c.id == id && c.eventId == eventId
  }

  function ListedUnder(eventId: string): Committee -> bool {
    (c: Committee) => c.eventId == eventId
  }

  function SameRegistrant(matricNo: string, eventId: string): Registration -> bool {
    (r: Registration) => r.matricNo == matricNo && r.eventId == eventId
  }

  function InEvent(eventId: string): Registration -> bool {
    (r: Registration) => r.eventId == eventId
  }

  function HasUserId(id: string): User -> bool {
    (u: User) => u.id == id
  }

  // The two guarantees committee admission exists to protect.

  /** No committee that holds registrations holds more than its capacity.
      (A committee created with a capacity of zero or less, which nothing
      prevents, can still be empty.) */
  ghost predicate CapacityRespected(s: Store) {
    forall i :: 0 <= i < |s.committees| ==>
      var c := s.committees[i];
      Occupancy(s.registrations, c.id, c.eventId) == 0
      || Occupancy(s.registrations, c.id, c.eventId) <= Capacity(c)
  }

  /** No two registrations of the same event share a matric number. */
  ghost predicate OneRegistrationPerEvent(s: Store) {
    forall i, j :: 0 <= i < j < |s.registrations| ==>
      s.registrations[i].eventId != s.registrations[j].eventId
      || s.registrations[i].matricNo != s.registrations[j].matricNo
  }

  ghost predicate AdmissionInvariant(s: Store) {
    CapacityRespected(s) && OneRegistrationPerEvent(s)
  }

  /** `uuidv4()` is modelled by an identifier that no row uses or refers to. */
  ghost predicate Unused(s: Store, id: string) {
    && id != ""
    && (forall i :: 0 <= i < |s.events| ==> s.events[i].id != id)
    && (forall i :: 0 <= i < |s.committees| ==> s.committees[i].id != id && s.committees[i].eventId != id)
    && (forall i :: 0 <= i < |s.registrations| ==>
          s.registrations[i].id != id && s.registrations[i].ajkId != id && s.registrations[i].eventId != id)
    && (forall i :: 0 <= i < |s.users| ==> s.users[i].id != id)
  }

  /** Appending a registration raises the count of exactly the committee it
      references. */
  lemma OccupancySnoc(regs: seq<Registration>, r: Registration, ajkId: string, eventId: string)
    ensures Occupancy(regs + [r], ajkId, eventId)
         == Occupancy(regs, ajkId, eventId) + (if r.ajkId == ajkId && r.eventId == eventId then 1 else 0)
  {
    assert (regs + [r])[..|regs|] == regs;
  }
}

=== FILE: validate_token.dfy ===
/** `POST /api/events/validate-token`: is there an event whose
    registration token is the one submitted? */
module ValidateToken {
  import opened Common
  import opened Store

  datatype Verdict = Verdict(valid: bool, status: int)

  /** `body` is the submitted `token` field, None when the body is not JSON
      (the catch-all reply); `fault` is an error from the store. The lookup
      is `.maybeSingle()`: two events with the token are an error. */
  function Validate(s: Store, body: Option<string>, fault: bool): (v: Verdict)
    ensures v.valid <==>
      body.Some? && body.value != "" && !fault && |Filter(s.events, WithToken(body.value))| == 1
    ensures v.valid ==> v.status == 200
    ensures body.Some? && body.value != "" && !fault ==>
      v.status == (if |Filter(s.events, WithToken(body.value))| > 1 then 500 else 200)
    ensures body.Some? && body.value == "" ==> v == Verdict(false, 400)
    ensures body.None? || (body.value != "" && fault) ==> v == Verdict(false, 500)
  {
    if body.None? then Verdict(false, 500)
    else if body.value == "" then Verdict(false, 400)
    else if fault then Verdict(false, 500)
    else
      var found := Filter(s.events, WithToken(body.value));
      if |found| > 1 then Verdict(false, 500)
      else Verdict(|found| == 1, 200)
  }

  /** Registration tokens are unique, as the event table promises. */
  ghost predicate UniqueTokens(s: Store) {
    forall i, j :: 0 <= i < j < |s.events| && s.events[i].token != "" ==> s.events[i].token != s.events[j].token
  }

  lemma {:induction false} UniqueTokenMatchesAtMostOnce(es: seq<Event>, token: string)
    requires token != ""
    requires forall i, j :: 0 <= i < j < |es| && es[i].token != "" ==> es[i].token != es[j].token
    ensures |Filter(es, WithToken(token))| <= 1
    decreases |es|
  {
    if |es| > 0 {
      var init, last := es[..|es| - 1], es[|es| - 1];
      UniqueTokenMatchesAtMostOnce(init, token);
      assert es == init + [last];
      FilterSnoc(init, last, WithToken(token));
      if last.token == token {
        forall k | 0 <= k < |init| ensures !WithToken(token)(init[k]) {
          assert es[k] == init[k];
        }
        FilterEmpty(init, WithToken(token));
      }
    }
  }

  /** With unique tokens, a token is valid exactly when some event carries
      it, in both directions. */
  lemma ValidIffSomeEvent(s: Store, token: string)
    requires UniqueTokens(s) && token != ""
    ensures Validate(s, Some(token), false).valid <==> exists i :: 0 <= i < |s.events| && s.events[i].token == token
  {
    UniqueTokenMatchesAtMostOnce(s.events, token);
    FilterEmpty(s.events, WithToken(token));
  }

  /** A token this endpoint accepts is one the admission check resolves to
      an event: the two agree on what a valid token is. */
  lemma ValidTokenResolves(s: Store, token: string)
    requires Validate(s, Some(token), false).valid
    ensures Single(s.events, WithToken(token)).Some?
    ensures Single(s.events, WithToken(token)).value.token == token
  {
  }
}
